=== FILE: README.md ===
# Site visit recency analysis, in Dafny

This project models the analysis core of a script. The script reads a sheet
of site visits (a site code and a date per row) and reports how long ago
each target site was last visited. It takes the 23 configured target sites,
keeps only their visits, and finds the latest visit of each. It then counts
the days since that visit and marks a visit as required after 180 days.
Each site gets a tier: HIGH above 180 days, MEDIUM above 120, LOW otherwise.
Target sites without any visit are added as HIGH with the "no data" value
999. The rows are sorted HIGH first and most overdue first, and summary
counts are taken over them. The model also covers the small rules of the
report: the row highlight colour, the "Priority Sites" sheet, the "No Data"
days cell and the column width cap. It also covers how the spreadsheet key
is cut out of a Google Sheets link.

Dates are whole day numbers and "now" is a parameter, so the whole pipeline
is a pure, total function (`Pipeline.Analyze`). Running it twice on the same
input gives the same rows.

Files (one module each):

- `visits.dfy` (`Visits`): sites, day numbers, visit records, the target
  list, and sequence helpers (distinct elements, images of permutations).
- `priorities.dfy` (`Priorities`): the tiers, the 180/120 thresholds, the
  required flag and the sort rank.
- `status.dfy` (`Status`): the status row, with its two kinds: a site with
  data, and the no-data backfill.
- `site_order.dfy` (`SiteOrder`): the code-point order of site codes and a
  sort of codes.
- `ordering.dfy` (`Ordering`): the report order, the stable sort and its
  tie classes.
- `pipeline.dfy` (`Pipeline`): filter, latest visit per site, rows, backfill,
  sort, and the theorem about the whole pipeline.
- `summary.dfy` (`Summary`): the summary counts, as written and by date.
- `report.dfy` (`Report`): fill colours, "Priority Sites", days cell,
  column width.
- `sheet_url.dfy` (`SheetUrl`): Python's `str.split` and the key extraction.
- `scenarios.dfy` (`Scenarios`): worked examples.

Failures and tie order, as the code has them:

- The code has no distinct failure kinds. A failure while opening or
  reading the sheet (lines 78-104) prints a message and returns `None`
  (lines 106-112), and the analysis then stops (lines 128-130). A failure
  while reading the credentials or authorising (lines 70-75) is outside that
  `try` and raises. A failed date parse raises from its last fallback
  (line 146). All of these sit in the parts left out below.
- Grouping by site (line 156) lists the sites with data in ascending code
  order. The two-column sort (line 198) is stable, so rows with equal
  priority and days keep the order they had before it: the dated sites in
  code order, then the backfilled sites. The model builds the rows from the
  target sites sorted by code (`Pipeline.GroupedSites`) and sorts them with a
  stable insertion sort. `Ordering.StableSortUnique` shows that sorted rows
  that keep every tie class in its order are unique, so the report order is
  fully determined. The one difference from the code is the backfilled
  sites among themselves: the code adds them in set iteration order
  (lines 178-193), which Python does not fix, and the model adds them in
  code order.

## Model

| member | source | states |
|---|---|---|
| Priorities.Classify | Recent_Site_Visits_Spreadsheet.py:167-175 | The tiers split the integers into three ranges, each in both directions: HIGH exactly above 180 days, MEDIUM exactly from 121 to 180, LOW exactly at 120 or below |
| Priorities.VisitRequired | Recent_Site_Visits_Spreadsheet.py:164-173 | A visit is required exactly when the tier is HIGH, so the flag and the tier never disagree |
| Priorities.Rank | Recent_Site_Visits_Spreadsheet.py:196-197 | HIGH gets the smallest sort key and LOW the largest, so an ascending sort lists HIGH first, MEDIUM next, LOW last |
| Priorities.ClassifyMonotone | Recent_Site_Visits_Spreadsheet.py:167-173 | More days never give a less urgent tier |
| Priorities.ClassifyBoundaries | Recent_Site_Visits_Spreadsheet.py:167-173 | 181 days is HIGH, 180 is MEDIUM, 121 is MEDIUM, 120 is LOW; the no-data value 999 is HIGH and required |
| Priorities.RankInjective | Recent_Site_Visits_Spreadsheet.py:196-197 | The rank map HIGH 0, MEDIUM 1, LOW 2 tells tiers apart |
| Status.WithData | Recent_Site_Visits_Spreadsheet.py:159-175 | A site with data keeps its last date; its days are now minus that date, and its tier and required flag follow from the days |
| Status.NoData | Recent_Site_Visits_Spreadsheet.py:185-192 | A backfilled site has no date, days 999, tier HIGH and a required visit, which agrees with what 999 days would give |
| Status.RequiredIffHighRow | Recent_Site_Visits_Spreadsheet.py:164-169 | In every row, data or backfill, required holds exactly for HIGH rows |
| Visits.Distinct | Recent_Site_Visits_Spreadsheet.py:178-180 | The target list read as a set: the same sites, each once |
| Pipeline.FilterTargets | Recent_Site_Visits_Spreadsheet.py:151 | Every record of a target site is kept, as often as it occurs, and no other record is kept |
| Pipeline.FilterTargetsConcat | Recent_Site_Visits_Spreadsheet.py:151 | Filtering two stretches of records gives the two filtered stretches one after the other |
| Pipeline.OtherSitesIgnored | Recent_Site_Visits_Spreadsheet.py:151 | A record of a site outside the targets, inserted anywhere among the records, leaves the report unchanged |
| Pipeline.FilterKeepsTargetFacts | Recent_Site_Visits_Spreadsheet.py:151-156 | For a target site, having a record and the latest date are the same before and after the filter |
| Pipeline.LatestVisits | Recent_Site_Visits_Spreadsheet.py:156-157 | Exactly the sites with a record get an entry, and each entry is the maximum date over that site's records and is itself one of them |
| Pipeline.DataRows | Recent_Site_Visits_Spreadsheet.py:156-175 | Each data row belongs to a site with a latest visit and is the data row for that date |
| Pipeline.BackfillRows | Recent_Site_Visits_Spreadsheet.py:178-193 | Each backfilled row belongs to a target site without a record and is the no-data row |
| Pipeline.UnsortedRowsCover | Recent_Site_Visits_Spreadsheet.py:156-193 | Before sorting, the data rows and the backfill together name every target site exactly once |
| Pipeline.RowsPartitionSites | Recent_Site_Visits_Spreadsheet.py:156-193 | Every site of the grouped list goes to exactly one side, the data rows or the backfill, as often as it occurs in the list |
| Pipeline.SortedRowsCover | Recent_Site_Visits_Spreadsheet.py:178-198 | After sorting, the sites are exactly the target sites, with no duplicate, one row per distinct target |
| Pipeline.AnalyzeRowsReflect | Recent_Site_Visits_Spreadsheet.py:156-193 | Every sorted row is either the latest-visit row of a site that has records or the no-data row of a site that has none |
| Pipeline.Analyze | Recent_Site_Visits_Spreadsheet.py:150-199 | The report has one row per target site, with no duplicates or omissions. A site with records has its maximum date, days = now - date, and the tier and flag for those days. A site without records has no date, 999, HIGH and required. The rows are in report order |
| Pipeline.SingleTarget | Recent_Site_Visits_Spreadsheet.py:150-199 | With one target site the report is that site's single row |
| Ordering.Insert | Recent_Site_Visits_Spreadsheet.py:198 | Inserting a row into a sorted sequence keeps it sorted and adds exactly that row |
| Ordering.SortRows | Recent_Site_Visits_Spreadsheet.py:195-199 | The sorted rows are a permutation of the input, ordered by rank ascending and, within a rank, by days descending |
| Ordering.SortedRanks | Recent_Site_Visits_Spreadsheet.py:196-198 | In sorted rows a more urgent tier never follows a less urgent one, and within a tier days never increase |
| SiteOrder.CodeTotal | Recent_Site_Visits_Spreadsheet.py:156 | Of two different site codes exactly one sorts first |
| SiteOrder.CodeTransitive | Recent_Site_Visits_Spreadsheet.py:156 | The order of site codes is transitive |
| SiteOrder.InsertCode | Recent_Site_Visits_Spreadsheet.py:156 | Inserting a code into sorted codes keeps them sorted and adds exactly that code |
| SiteOrder.SortCodes | Recent_Site_Visits_Spreadsheet.py:156 | The sorted codes are a permutation of the input, in ascending code order |
| SiteOrder.SortCodesAscending | Recent_Site_Visits_Spreadsheet.py:156 | Codes without repetition come out strictly ascending, each once |
| Pipeline.GroupedSitesAscend | Recent_Site_Visits_Spreadsheet.py:156 | The sites the rows are built from are exactly the target sites, each once, in strictly ascending code order |
| Pipeline.DataRowsInCodeOrder | Recent_Site_Visits_Spreadsheet.py:156-157 | The rows of the sites with data come out in ascending code order |
| Pipeline.BackfillRowsInCodeOrder | Recent_Site_Visits_Spreadsheet.py:181-193 | The backfilled rows come out in ascending code order |
| Pipeline.TiedInCodeOrder | Recent_Site_Visits_Spreadsheet.py:198 | A tie class of rows in code order is in code order |
| Pipeline.ConcatDatedThenUndated | Recent_Site_Visits_Spreadsheet.py:193 | Dated rows in code order followed by undated rows in code order have every dated row first and each kind in code order |
| Pipeline.AnalyzeBreaksTies | Recent_Site_Visits_Spreadsheet.py:156-198 | Among report rows with the same priority and days, the sites with a visit come first in code order, then the backfilled sites in code order |
| Pipeline.OneRowVisited | Recent_Site_Visits_Spreadsheet.py:156-175 | A single row that reflects a site whose latest visit is on day d is that site's data row for day d |
| Pipeline.SingleTargetVisited | Recent_Site_Visits_Spreadsheet.py:150-199 | With one target site whose latest visit is on day d, the report is that site's data row for day d |
| Ordering.Tied | Recent_Site_Visits_Spreadsheet.py:198 | The tie class of a key holds only rows of that key, all taken from the input |
| Ordering.TiedWhole | Recent_Site_Visits_Spreadsheet.py:198 | Rows that all share one key are one whole tie class |
| Ordering.TiedConcat | Recent_Site_Visits_Spreadsheet.py:193-198 | The tie class of two row lists joined is the two tie classes joined |
| Ordering.InsertTied | Recent_Site_Visits_Spreadsheet.py:198 | Inserting a row puts it first among the rows it ties with and leaves every other tie class as it was |
| Ordering.SortRowsStable | Recent_Site_Visits_Spreadsheet.py:198 | The sort is stable: every tie class keeps its order from the input |
| Ordering.TiedHeadsEqual | Recent_Site_Visits_Spreadsheet.py:198 | Two sorted row lists with the same tie classes start with the same row |
| Ordering.TiedTailAlike | Recent_Site_Visits_Spreadsheet.py:198 | Removing an equal first row keeps a tie class equal |
| Ordering.StableSortUnique | Recent_Site_Visits_Spreadsheet.py:198 | Two sorted row lists with the same tie classes are equal: a stable sort has one result |
| Ordering.SortRowsIsStableSort | Recent_Site_Visits_Spreadsheet.py:198 | Any sorted list of rows that keeps every tie class of the input in its order is exactly the sort of the input |
| Scenarios.TiedSitesInCodeOrder | Recent_Site_Visits_Spreadsheet.py:156 | The targets NANT, BLCK are grouped as BLCK, NANT; with `Pipeline.AnalyzeBreaksTies` this puts BLCK first when the two tie and both have a visit, or both are backfilled. A dated NANT still comes before a backfilled BLCK it ties with |
| Scenarios.ConfiguredReportSize | Recent_Site_Visits_Spreadsheet.py:9-13 | The 23 configured target sites are all different, so the report over them has 23 rows whatever the sheet holds |
| Ordering.SortedKeysUnique | Recent_Site_Visits_Spreadsheet.py:198 | Two sorted arrangements of the same sort keys are equal |
| Ordering.SortsAgreeOnKeys | Recent_Site_Visits_Spreadsheet.py:198 | Any two correct sorts of the same rows agree on priority and days at every position; only tied sites can trade places |
| Scenarios.TwoVisitsToNant | Recent_Site_Visits_Spreadsheet.py:156-175 | Visits to NANT on 2024-01-01 and 2024-06-01 with now 2024-08-01 give last date 2024-06-01, 61 days, LOW, not required |
| Scenarios.AmagWithoutRecords | Recent_Site_Visits_Spreadsheet.py:178-193 | Target AMAG with no records gives one row: no date, 999, HIGH, required |
| Scenarios.OnlyOtherSiteRecorded | Recent_Site_Visits_Spreadsheet.py:151-193 | When the only record belongs to another site, the one target site gets the no-data row |
| Summary.CountWhere | Recent_Site_Visits_Spreadsheet.py:203-211 | A count is at most the number of rows; it is zero exactly when no row qualifies and the total exactly when all do |
| Summary.WhereSingle | Recent_Site_Visits_Spreadsheet.py:203-211 | On one row, the count is 1 and the sum and maximum are its days when it qualifies; otherwise 0, 0 and none |
| Summary.CountConcat | Recent_Site_Visits_Spreadsheet.py:203-211 | The count over two stretches of rows is the sum of their counts; with `Summary.WhereSingle` this makes it the number of qualifying rows |
| Summary.SumConcat | Recent_Site_Visits_Spreadsheet.py:209 | The days sum over two stretches of rows is the sum of their sums; with `Summary.WhereSingle` this makes it the total days of the qualifying rows |
| Summary.MaxConcat | Recent_Site_Visits_Spreadsheet.py:210 | The maximum over two stretches of rows is the larger of their maxima, a missing one giving way |
| Summary.SumDaysBound | Recent_Site_Visits_Spreadsheet.py:209 | If every qualifying row has at most b days, their days sum is at most b times their number |
| Summary.AverageAtMostMax | Recent_Site_Visits_Spreadsheet.py:209-210 | When a maximum exists, some row qualifies and the days sum is at most their number times the maximum: the average never exceeds the maximum |
| Summary.MaxDaysWhere | Recent_Site_Visits_Spreadsheet.py:210 | The maximum is absent exactly when no row qualifies; otherwise it is the days of a qualifying row and at least those of every other |
| Summary.Summarize | Recent_Site_Visits_Spreadsheet.py:202-212 | Each field counts its rows: required, not required, HIGH, MEDIUM, LOW; the average and maximum are over the rows below 999 days; "no data" counts the rows at 999. Hence requiring plus OK and the three tiers each add up to the total, and counted-in-average plus no-data is at most the total |
| Summary.SummarizeSingle | Recent_Site_Visits_Spreadsheet.py:202-212 | The summary of one row: total 1, a 1 in its required or OK count and in its tier, its days in the average and maximum below 999, and a no-data count of 1 exactly at 999 |
| Summary.SummarizeConcat | Recent_Site_Visits_Spreadsheet.py:202-212 | The summary of two stretches of rows adds their counts and sums and takes the larger maximum; with `Summary.SummarizeSingle` it is fixed on every report |
| Summary.CountComplement | Recent_Site_Visits_Spreadsheet.py:204-205 | Counts of a condition and its negation add up to the row count |
| Summary.CountTiers | Recent_Site_Visits_Spreadsheet.py:206-208 | The three tier counts add up to the row count |
| Summary.CountDisjoint | Recent_Site_Visits_Spreadsheet.py:209-211 | Counts of two exclusive conditions add up to at most the row count |
| Summary.CountAgree | Recent_Site_Visits_Spreadsheet.py:203-211 | Conditions that agree on every row give the same count, sum and maximum |
| Summary.AnalyzeSummary | Recent_Site_Visits_Spreadsheet.py:203-206 | For the report, the total equals the number of distinct target sites and the requiring count equals the HIGH count |
| Summary.SummariesAgree | Recent_Site_Visits_Spreadsheet.py:209-211 | If dated rows stay under 999 and undated rows are at 999, the as-written summary equals the by-date summary |
| Summary.AnalyzeSummariesAgree | Recent_Site_Visits_Spreadsheet.py:209-211 | If no visit is 999 or more days old, the as-written summary of the report equals the by-date summary |
| Summary.SingleVisit | Recent_Site_Visits_Spreadsheet.py:156-175 | One visit to one target site yields exactly that site's data row |
| Summary.NoDataCountsVisitedSite | Recent_Site_Visits_Spreadsheet.py:211 | A site with a record exactly 999 days old is counted as "Sites with No Data" as written, and not by date |
| Summary.MaxSkipsLongUnvisitedSite | Recent_Site_Visits_Spreadsheet.py:209-210 | With one visit to one target site, 999 or more days old, the site is missing from the average and maximum as written; by date its days are the maximum |
| Summary.SummarizeByDate | Recent_Site_Visits_Spreadsheet.py:202-212 | The corrected summary: the same counts, but the average and maximum are over the rows with a date and "no data" counts the rows without one, so counted-in-average plus no-data is exactly the total |
| Summary.SummarizeByDateSingle | Recent_Site_Visits_Spreadsheet.py:202-212 | The corrected summary of one row: its days enter the average and maximum exactly when it has a date, and it counts as no data exactly when it has none |
| Summary.SummarizeByDateConcat | Recent_Site_Visits_Spreadsheet.py:202-212 | The corrected summary of two stretches of rows adds their counts and sums and takes the larger maximum |
| Summary.ByDateNoDataIsMissingSites | Recent_Site_Visits_Spreadsheet.py:209-211 | By date, "Sites with No Data" counts exactly the target sites without a record, and the maximum exists exactly when some target site has one |
| Summary.DatedMaxIsLongestGap | Recent_Site_Visits_Spreadsheet.py:210 | Over rows that reflect the records, one per target site, the maximum over dated rows is reached by a target site's latest visit, and no target site's latest visit is older |
| Summary.ByDateMaxIsLongestGap | Recent_Site_Visits_Spreadsheet.py:210 | The corrected maximum of the report is the longest time since the latest visit of any target site with records, however old that visit is |
| Report.RowFill | Recent_Site_Visits_Spreadsheet.py:257-262 | Red (FFCCCC) exactly for HIGH, yellow (FFFF99) exactly for MEDIUM, no fill exactly for LOW |
| Report.PrioritySites | Recent_Site_Visits_Spreadsheet.py:273 | Every HIGH or MEDIUM row is kept, as often as it occurs, and no LOW row is kept |
| Report.PrioritySitesConcat | Recent_Site_Visits_Spreadsheet.py:273 | The selection of two stretches of rows is the two selections one after the other; with the multiset contract this fixes it as the order-keeping mask on any input |
| Report.PrioritySitesKeepsOrder | Recent_Site_Visits_Spreadsheet.py:273 | The "Priority Sites" sheet of a sorted report is itself sorted |
| Ordering.SortedTail | Recent_Site_Visits_Spreadsheet.py:198 | Dropping the first row of a sorted report leaves it sorted |
| Report.LowHeadAllLow | Recent_Site_Visits_Spreadsheet.py:273 | A sorted report that starts with a LOW row has only LOW rows and an empty "Priority Sites" sheet |
| Report.PrioritySitesIsPrefix | Recent_Site_Visits_Spreadsheet.py:273 | On the sorted report, "Priority Sites" is exactly its leading part, and every row after it is LOW |
| Report.FillMarksPrioritySites | Recent_Site_Visits_Spreadsheet.py:257-273 | A row of the main sheet is highlighted exactly when it is listed on "Priority Sites" |
| Report.DaysCell | Recent_Site_Visits_Spreadsheet.py:218 | The days cell reads "No Data" exactly when the days value is 999; any other value is shown as that number |
| Report.NoDataRowShowsNoData | Recent_Site_Visits_Spreadsheet.py:218 | A backfilled row shows "No Data" in its days column |
| Report.VisitedRowShowsNoData | Recent_Site_Visits_Spreadsheet.py:218 | Any site whose last visit was exactly 999 days before now keeps its date but shows "No Data" in its days column |
| Report.ColumnWidth | Recent_Site_Visits_Spreadsheet.py:238-251 | The width is never above 50 and at least 2. Below the cap, it is two more than the longest cell (2 when no cell has text), and every cell fits. It is 50 only when some cell with its padding reaches 50 |
| SheetUrl.FindFrom | Recent_Site_Visits_Spreadsheet.py:80 | The search result is the first occurrence at or after the start, or none when the pattern does not occur there |
| SheetUrl.Find | Recent_Site_Visits_Spreadsheet.py:80 | The search result is the first occurrence, or none exactly when the pattern does not occur |
| SheetUrl.Split | Recent_Site_Visits_Spreadsheet.py:81 | Joining the pieces with the separator gives back the text; no piece contains the separator, and each cut is at the first occurrence after the previous cut; no separator gives one piece, and a separator gives at least two with the first being the text before the first separator |
| SheetUrl.TakeUntil | Recent_Site_Visits_Spreadsheet.py:81 | The result is a prefix without the character, and it stops at that character or at the end |
| SheetUrl.TakeUntilUnique | Recent_Site_Visits_Spreadsheet.py:81 | That prefix is the only one with those properties |
| SheetUrl.SplitFirstAtChar | Recent_Site_Visits_Spreadsheet.py:81 | Splitting at "/" and taking piece 0 is the text before the first "/" |
| SheetUrl.TakeUntilCut | Recent_Site_Visits_Spreadsheet.py:81 | Cutting the text at a "/" or at its end does not change the text before the first "/" |
| SheetUrl.SpreadsheetId | Recent_Site_Visits_Spreadsheet.py:80-83 | With "/d/" in the link, the key is the text after the first "/d/" up to the next "/"; without it, the key is the whole link |
| SheetUrl.SpreadsheetIdShape | Recent_Site_Visits_Spreadsheet.py:80-83 | The key is a piece of the link, and it has no "/" when the link contains "/d/" |

## Left out

- Credential discovery and directory listing (lines 18-49): file-system I/O.
- Authorising with Google, opening the sheet and building the table (lines 62-79, 84-112): network calls into libraries that are not part of this model. Only the key extraction (lines 80-83) is modelled. The failure path that prints and returns nothing is left out with them.
- Date parsing with its chain of format fallbacks (lines 132-148): its result is whatever the pandas parser does. The model takes dates already parsed into day numbers.
- Reading the clock and the day floor of the time difference (lines 160-161): `now` is a day-number parameter. `datetime.now()` carries a time of day; when the visit dates are at midnight, the floor in `.dt.days` removes it, so the difference is the plain difference of day numbers. Visit dates carrying a time of day are not modelled.
- Summary.Summarize: the average days (line 209) is a float mean. The model keeps the sum and the number of values it is taken over. The rounding of the "Priority Breakdown" sheet (lines 310-315) is left out with that sheet.
- The "Priority Breakdown" sheet (lines 309-315): the comma-joined site list per tier and a float mean per tier, which is output rendering.
- Writing the workbook, openpyxl style objects, and the date text `%Y-%m-%d` with its "No Data" fill (lines 214-217, 225-333): output rendering. The highlight choice, the "Priority Sites" selection, the days cell and the width rule are modelled. The width rule is the same on every sheet (lines 250, 292, 332).
- Report.ColumnWidth: takes the rendered cell texts. How Python turns each cell value into text (`str(cell.value)`) is not modelled.
- Console output (lines 336-363): printing only.
- Pipeline.BackfillRows: the backfilled sites are added in ascending code order. The code adds them in set iteration order (lines 181-193), which Python does not fix, so the order among backfilled sites that tie is not promised to match.
- `SheetUrl.SpreadsheetId` is not evaluated on the link configured at line 16: checking a 100-character literal position by position is too costly. Its contract states what it returns for every link.

## Findings

| source | as written | input that shows it | evidently intended | confidence | as-written member | corrected member |
|---|---|---|---|---|---|---|
| Recent_Site_Visits_Spreadsheet.py:211 | "Sites with No Data" counts the rows whose days value equals 999 | one visit to a target site exactly 999 days before now: the site has a record but is counted as no data (the days cell at line 218 also reads "No Data") | count the target sites that have no record | medium, not executed | Summary.NoDataCountsVisitedSite | Summary.ByDateNoDataIsMissingSites |
| Recent_Site_Visits_Spreadsheet.py:209-210 | average and maximum are taken over rows with days below 999 | one visit to a target site 1000 days before now: the maximum is empty and the average has no values, though the site has a date | take them over every site that has a last-visit date | medium, not executed | Summary.MaxSkipsLongUnvisitedSite | Summary.ByDateMaxIsLongestGap |

`Summary.Summarize` reproduces the code as written. `Summary.SummarizeByDate`
is the corrected summary, which reads "no data" from the missing date.
`Summary.AnalyzeSummariesAgree` shows that the two agree whenever no visit
is 999 or more days old.

=== FILE: ordering.dfy ===
/**
 The report order: by priority rank ascending (HIGH, MEDIUM, LOW), then by
 days since the last visit descending (most overdue first).

 Sorting by two columns is stable: rows with equal keys keep the order they
 had before the sort. `SortRows` is an insertion sort with that property, and
 `StableSortUnique` shows that a stable sort has exactly one result.
 */
module Ordering {
  import opened Visits
  import opened Priorities
  import opened Status

  /** `a` may come before `b` in the report. */
  predicate Before(a: SiteStatus, b: SiteStatus) {
    Rank(a.priority) < Rank(b.priority)
    || (Rank(a.priority) == Rank(b.priority) && a.days >= b.days)
  }

  predicate Sorted(s: seq<SiteStatus>) {
    forall i, j :: 0 <= i < j < |s| ==> Before(s[i], s[j])
  }

  /** `x` inserted into the sorted sequence `s` at its place. */
  function Insert(x: SiteStatus, s: seq<SiteStatus>): (r: seq<SiteStatus>)
    requires Sorted(s)
    ensures Sorted(r)
    ensures multiset(r) == multiset(s) + multiset{x}
  {
    if |s| == 0 then [x]
    else if Before(x, s[0]) then [x] + s
    else
      var t := Insert(x, s[1..]);
      assert s == [s[0]] + s[1..];
      InsertKeepsHeadFirst(x, s, t);
      [s[0]] + t
  }

  /** The head of a sorted sequence that `x` does not go before may go
      before every row of the tail with `x` added. */
  lemma InsertKeepsHeadFirst(x: SiteStatus, s: seq<SiteStatus>, t: seq<SiteStatus>)
    requires Sorted(s) && |s| > 0 && !Before(x, s[0])
    requires multiset(t) == multiset(s[1..]) + multiset{x}
    ensures forall k :: 0 <= k < |t| ==> Before(s[0], t[k])
  {
    forall k | 0 <= k < |t| ensures Before(s[0], t[k]) {
      assert t[k] in multiset(t);
      if t[k] != x {
        assert t[k] in multiset(s[1..]);
        var m :| 0 <= m < |s[1..]| && s[1..][m] == t[k];
        assert s[m + 1] == t[k];
      }
    }
  }

  /** A row that comes before every row of a sorted sequence can be put in
      front of it. */
  lemma SortedCons(x: SiteStatus, s: seq<SiteStatus>)
    requires Sorted(s)
    requires forall k :: 0 <= k < |s| ==> Before(x, s[k])
    ensures Sorted([x] + s)
  {
    var q := [x] + s;
    forall i, j | 0 <= i < j < |q| ensures Before(q[i], q[j]) {
      if i == 0 {
        assert q[j] == s[j - 1];
      } else {
        assert q[i] == s[i - 1] && q[j] == s[j - 1];
      }
    }
  }

  /** The tail of a sorted sequence is sorted. */
  lemma SortedTail(rows: seq<SiteStatus>)
    requires Sorted(rows) && |rows| > 0
    ensures Sorted(rows[1..])
  {
    var rest := rows[1..];
    forall i, j | 0 <= i < j < |rest| ensures Before(rest[i], rest[j]) {
      assert Before(rows[i + 1], rows[j + 1]);
    }
  }

  /** The rows in report order. */
  function SortRows(s: seq<SiteStatus>): (r: seq<SiteStatus>)
    ensures Sorted(r)
    ensures multiset(r) == multiset(s)
    ensures |r| == |s|
  {
    if |s| == 0 then []
    else
      assert s == [s[0]] + s[1..];
      Insert(s[0], SortRows(s[1..]))
  }

  /** In a sorted report, a row of a more urgent tier never follows a less
      urgent one. */
  lemma SortedRanks(s: seq<SiteStatus>, i: int, j: int)
    requires Sorted(s)
    requires 0 <= i < j < |s|
    ensures Rank(s[i].priority) <= Rank(s[j].priority)
    ensures s[i].priority == s[j].priority ==> s[i].days >= s[j].days
  {
    assert Before(s[i], s[j]);
    RankInjective(s[i].priority, s[j].priority);
  }

  /** The sort key of a row: its rank, then its days (larger first). */
  function KeyOf(r: SiteStatus): (int, int) {
    (Rank(r.priority), r.days)
  }

  predicate KeyBefore(x: (int, int), y: (int, int)) {
    x.0 < y.0 || (x.0 == y.0 && x.1 >= y.1)
  }

  predicate KeysSorted(ks: seq<(int, int)>) {
    forall i, j :: 0 <= i < j < |ks| ==> KeyBefore(ks[i], ks[j])
  }

  /** The tail of a sorted key sequence is sorted. */
  lemma KeysSortedTail(x: seq<(int, int)>)
    requires KeysSorted(x) && |x| > 0
    ensures KeysSorted(x[1..])
  {
    forall p, q | 0 <= p < q < |x| - 1 ensures KeyBefore(x[1..][p], x[1..][q]) {
      assert KeyBefore(x[p + 1], x[q + 1]);
    }
  }

  /** Two sorted arrangements of the same keys start with the same key. */
  lemma SortedHeadsEqual(x: seq<(int, int)>, y: seq<(int, int)>)
    requires KeysSorted(x) && KeysSorted(y)
    requires multiset(x) == multiset(y) && |x| > 0
    ensures |y| > 0 && x[0] == y[0]
  {
    assert x[0] in multiset(y);
    var j :| 0 <= j < |y| && y[j] == x[0];
    assert y[0] in multiset(x);
    var i :| 0 <= i < |x| && x[i] == y[0];
    assert j > 0 ==> KeyBefore(y[0], y[j]);
    assert i > 0 ==> KeyBefore(x[0], x[i]);
  }

  /** Sequences with equal heads and equal tails are equal. */
  lemma HeadTailEqual<T>(x: seq<T>, y: seq<T>)
    requires |x| > 0 && |y| > 0
    requires x[0] == y[0] && x[1..] == y[1..]
    ensures x == y
  {
    assert x == [x[0]] + x[1..] && y == [y[0]] + y[1..];
  }

  /** Keys are totally ordered, so a multiset of keys has one sorted
      arrangement. */
  lemma {:induction false} SortedKeysUnique(x: seq<(int, int)>, y: seq<(int, int)>)
    requires KeysSorted(x) && KeysSorted(y)
    requires multiset(x) == multiset(y)
    ensures x == y
  {
    if |x| == 0 {
      assert |y| == |multiset(y)| == 0;
    } else {
      SortedHeadsEqual(x, y);
      HeadTailMultiset(x);
      HeadTailMultiset(y);
      assert multiset(x[1..]) == multiset(x) - multiset{x[0]};
      assert multiset(y[1..]) == multiset(y) - multiset{y[0]};
      KeysSortedTail(x);
      KeysSortedTail(y);
      SortedKeysUnique(x[1..], y[1..]);
      HeadTailEqual(x, y);
    }
  }

  /** However ties are broken, every correct sort of the same rows shows the
      same priority and days in every position: only which of several tied
      sites comes first can differ. */
  lemma SortsAgreeOnKeys(a: seq<SiteStatus>, b: seq<SiteStatus>)
    requires Sorted(a) && Sorted(b)
    requires multiset(a) == multiset(b)
    ensures |a| == |b|
    ensures forall i :: 0 <= i < |a| ==> a[i].priority == b[i].priority && a[i].days == b[i].days
  {
    var ka, kb := MapSeq(a, KeyOf), MapSeq(b, KeyOf);
    assert KeysSorted(ka) by {
      forall p, q | 0 <= p < q < |ka| ensures KeyBefore(ka[p], ka[q]) {
        assert Before(a[p], a[q]);
      }
    }
    assert KeysSorted(kb) by {
      forall p, q | 0 <= p < q < |kb| ensures KeyBefore(kb[p], kb[q]) {
        assert Before(b[p], b[q]);
      }
    }
    MapSeqPermutation(a, b, KeyOf);
    SortedKeysUnique(ka, kb);
    forall i | 0 <= i < |a| ensures a[i].priority == b[i].priority && a[i].days == b[i].days {
      assert ka[i] == kb[i];
      RankInjective(a[i].priority, b[i].priority);
    }
  }

  /** The rows of `s` whose sort key is `k`, in their order in `s`. */
  function Tied(s: seq<SiteStatus>, k: (int, int)): (r: seq<SiteStatus>)
    ensures forall x :: x in r ==> x in s && KeyOf(x) == k
  {
    if |s| == 0 then []
    else (if KeyOf(s[0]) == k then [s[0]] else []) + Tied(s[1..], k)
  }

  /** The tied rows of a sequence with a new head. */
  lemma TiedCons(x: SiteStatus, s: seq<SiteStatus>, k: (int, int))
    ensures Tied([x] + s, k) == (if KeyOf(x) == k then [x] else []) + Tied(s, k)
  {
    assert ([x] + s)[1..] == s;
  }

  /** Rows that all share one key form a single tie class. */
  lemma {:induction false} TiedWhole(s: seq<SiteStatus>, k: (int, int))
    requires forall i :: 0 <= i < |s| ==> KeyOf(s[i]) == k
    ensures Tied(s, k) == s
  {
    if |s| > 0 {
      TiedWhole(s[1..], k);
      assert s == [s[0]] + s[1..];
    }
  }

  /** The tied rows of a concatenation are those of each part in turn. */
  lemma {:induction false} TiedConcat(a: seq<SiteStatus>, b: seq<SiteStatus>, k: (int, int))
    ensures Tied(a + b, k) == Tied(a, k) + Tied(b, k)
  {
    if |a| > 0 {
      assert a + b == [a[0]] + (a[1..] + b);
      assert a == [a[0]] + a[1..];
      TiedCons(a[0], a[1..] + b, k);
      TiedCons(a[0], a[1..], k);
      TiedConcat(a[1..], b, k);
    } else {
      assert a + b == b;
    }
  }

  /** Inserting `x` puts it ahead of the rows it ties with, and leaves the
      order of the other tie classes alone. */
  lemma {:induction false} InsertTied(x: SiteStatus, s: seq<SiteStatus>, k: (int, int))
    requires Sorted(s)
    ensures Tied(Insert(x, s), k) == (if KeyOf(x) == k then [x] else []) + Tied(s, k)
  {
    if |s| == 0 {
      TiedCons(x, [], k);
    } else if Before(x, s[0]) {
      TiedCons(x, s, k);
    } else {
      SortedTail(s);
      var t := Insert(x, s[1..]);
      InsertTied(x, s[1..], k);
      TiedCons(s[0], t, k);
      assert s == [s[0]] + s[1..];
      TiedCons(s[0], s[1..], k);
      assert KeyOf(x) != KeyOf(s[0]);
    }
  }

  /** The sort is stable: the rows of every tie class keep their order. */
  lemma {:induction false} SortRowsStable(s: seq<SiteStatus>, k: (int, int))
    ensures Tied(SortRows(s), k) == Tied(s, k)
  {
    if |s| > 0 {
      SortRowsStable(s[1..], k);
      InsertTied(s[0], SortRows(s[1..]), k);
      assert s == [s[0]] + s[1..];
      TiedCons(s[0], s[1..], k);
    }
  }

  /** A non-empty sequence holds its head among the rows tied with it. */
  lemma TiedHead(s: seq<SiteStatus>)
    requires |s| > 0
    ensures Tied(s, KeyOf(s[0])) == [s[0]] + Tied(s[1..], KeyOf(s[0]))
  {
  }

  /** In a sorted sequence, no row comes before the head. */
  lemma SortedHeadFirst(s: seq<SiteStatus>, x: SiteStatus)
    requires Sorted(s) && x in s
    ensures KeyBefore(KeyOf(s[0]), KeyOf(x))
  {
    var j :| 0 <= j < |s| && s[j] == x;
    if j > 0 {
      assert Before(s[0], s[j]);
    }
  }

  /** Two sorted sequences that tie alike start with the same row. */
  lemma TiedHeadsEqual(a: seq<SiteStatus>, b: seq<SiteStatus>)
    requires Sorted(a) && Sorted(b) && |a| > 0
    requires forall k :: Tied(a, k) == Tied(b, k)
    ensures |b| > 0 && a[0] == b[0]
  {
    var ka := KeyOf(a[0]);
    TiedHead(a);
    assert a[0] in Tied(b, ka);
    var kb := KeyOf(b[0]);
    TiedHead(b);
    assert b[0] in Tied(a, kb);
    SortedHeadFirst(b, a[0]);
    SortedHeadFirst(a, b[0]);
    assert ka == kb;
    assert Tied(a, ka)[0] == a[0] && Tied(b, kb)[0] == b[0];
  }

  /** Removing an equal head from two sequences keeps a tie class alike. */
  lemma TiedTailAlike(a: seq<SiteStatus>, b: seq<SiteStatus>, k: (int, int))
    requires |a| > 0 && |b| > 0 && a[0] == b[0]
    requires Tied(a, k) == Tied(b, k)
    ensures Tied(a[1..], k) == Tied(b[1..], k)
  {
    var p := if KeyOf(a[0]) == k then [a[0]] else [];
    assert Tied(a, k) == p + Tied(a[1..], k);
    assert Tied(b, k) == p + Tied(b[1..], k);
    assert (p + Tied(a[1..], k))[|p|..] == Tied(a[1..], k);
    assert (p + Tied(b[1..], k))[|p|..] == Tied(b[1..], k);
  }

  /** A sorted order that keeps every tie class in its order is unique:
      rows that are sorted and tie alike are the same rows in the same
      order. */
  lemma {:induction false} StableSortUnique(a: seq<SiteStatus>, b: seq<SiteStatus>)
    requires Sorted(a) && Sorted(b)
    requires forall k :: Tied(a, k) == Tied(b, k)
    ensures a == b
    decreases |a|
  {
    if |a| == 0 {
      if |b| > 0 {
        TiedHeadsEqual(b, a);
      }
    } else {
      TiedHeadsEqual(a, b);
      forall k ensures Tied(a[1..], k) == Tied(b[1..], k) {
        TiedTailAlike(a, b, k);
      }
      SortedTail(a);
      SortedTail(b);
      StableSortUnique(a[1..], b[1..]);
      HeadTailEqual(a, b);
    }
  }

  /** `SortRows` is the stable sort: any sorted arrangement of `s` that keeps
      each tie class in its order in `s` is `SortRows(s)`. */
  lemma SortRowsIsStableSort(s: seq<SiteStatus>, r: seq<SiteStatus>)
    requires Sorted(r)
    requires forall k :: Tied(r, k) == Tied(s, k)
    ensures r == SortRows(s)
  {
    forall k ensures Tied(r, k) == Tied(SortRows(s), k) {
      SortRowsStable(s, k);
    }
    StableSortUnique(r, SortRows(s));
  }
}

=== FILE: pipeline.dfy ===
/**
 The visit-recency pipeline: filter the records to the target sites, take the
 latest visit per site, turn each into a status row, backfill the target
 sites without records, and sort the rows into report order.
 */
module Pipeline {
  import opened Visits
  import opened Priorities
  import opened Status
  import opened Ordering
  import opened SiteOrder

  /** `records` holds at least one visit to `site`. */
  predicate HasRecord(records: seq<VisitRecord>, site: Site) {
    exists x :: x in records && x.site == site
  }

  /** `d` is the most recent date among the visits to `site` in `records`. */
  predicate IsLatest(records: seq<VisitRecord>, site: Site, d: Day) {
    && VisitRecord(site, d) in records
    && forall x :: x in records && x.site == site ==> x.date <= d
  }

  /** The records whose site is a target site: all of them, and only them. */
  function FilterTargets(records: seq<VisitRecord>, targets: seq<Site>): (r: seq<VisitRecord>)
    ensures forall x :: multiset(r)[x] == if x.site in targets then multiset(records)[x] else 0
  {
    if |records| == 0 then []
    else
      var rest := FilterTargets(records[1..], targets);
      assert records == [records[0]] + records[1..];
      if records[0].site in targets then [records[0]] + rest else rest
  }

  /** The date of the most recent visit of every site that has a record. */
  function LatestVisits(records: seq<VisitRecord>): (m: map<Site, Day>)
    ensures forall s :: s in m <==> HasRecord(records, s)
    ensures forall s :: s in m ==> IsLatest(records, s, m[s])
  {
    if |records| == 0 then map[]
    else
      var n := |records| - 1;
      var m := LatestVisits(records[..n]);
      var x := records[n];
      var m' := if x.site in m && x.date <= m[x.site] then m else m[x.site := x.date];
      LatestStepSites(records, m, m');
      LatestStepDates(records, m, m');
      m'
  }

  /** Folding in the last record gives exactly the sites with a record. */
  lemma LatestStepSites(records: seq<VisitRecord>, m: map<Site, Day>, m': map<Site, Day>)
    requires |records| > 0
    requires forall s :: s in m <==> HasRecord(records[..|records| - 1], s)
    requires var x := records[|records| - 1];
      m' == if x.site in m && x.date <= m[x.site] then m else m[x.site := x.date]
    ensures forall s :: s in m' <==> HasRecord(records, s)
  {
    var n := |records| - 1;
    var x := records[n];
    assert forall y :: y in records <==> y in records[..n] || y == x by {
      assert records == records[..n] + [x];
    }
  }

  /** Folding in the last record keeps each site's entry its latest date. */
  lemma LatestStepDates(records: seq<VisitRecord>, m: map<Site, Day>, m': map<Site, Day>)
    requires |records| > 0
    requires forall s :: s in m ==> IsLatest(records[..|records| - 1], s, m[s])
    requires forall s :: s in m <==> HasRecord(records[..|records| - 1], s)
    requires var x := records[|records| - 1];
      m' == if x.site in m && x.date <= m[x.site] then m else m[x.site := x.date]
    ensures forall s :: s in m' ==> IsLatest(records, s, m'[s])
  {
    var n := |records| - 1;
    var x := records[n];
    assert forall y :: y in records <==> y in records[..n] || y == x by {
      assert records == records[..n] + [x];
    }
    forall s | s in m' ensures IsLatest(records, s, m'[s]) {
      if s == x.site && x.site in m && m'[s] == m[s] {
        assert IsLatest(records[..n], s, m[s]);
      } else if s == x.site {
        assert m'[s] == x.date;
        forall y | y in records[..n] && y.site == s ensures y.date <= x.date {
          assert HasRecord(records[..n], s);
          assert IsLatest(records[..n], s, m[s]);
        }
      } else {
        assert IsLatest(records[..n], s, m[s]);
      }
    }
  }

  /** One status row for each site of `sites` that has a latest visit. */
  function DataRows(sites: seq<Site>, latest: map<Site, Day>, now: Day): (rows: seq<SiteStatus>)
    ensures forall r :: r in rows ==> r.site in sites && r.site in latest && r == WithData(r.site, latest[r.site], now)
  {
    if |sites| == 0 then []
    else
      var rest := DataRows(sites[1..], latest, now);
      if sites[0] in latest then [WithData(sites[0], latest[sites[0]], now)] + rest else rest
  }

  /** One no-data row for each site of `sites` without a latest visit. */
  function BackfillRows(sites: seq<Site>, latest: map<Site, Day>): (rows: seq<SiteStatus>)
    ensures forall r :: r in rows ==> r.site in sites && r.site !in latest && r == NoData(r.site)
  {
    if |sites| == 0 then []
    else
      var rest := BackfillRows(sites[1..], latest);
      if sites[0] !in latest then [NoData(sites[0])] + rest else rest
  }

  function SiteOf(r: SiteStatus): Site {
    r.site
  }

  /** The sites of a sequence of rows, in order. */
  function SitesOf(rows: seq<SiteStatus>): (sites: seq<Site>)
    ensures |sites| == |rows|
    ensures forall i :: 0 <= i < |rows| ==> sites[i] == rows[i].site
  {
    MapSeq(rows, SiteOf)
  }

  /** The target sites, each once, in the order in which grouping by site
      lists them. */
  function GroupedSites(targets: seq<Site>): seq<Site> {
    SortCodes(Distinct(targets))
  }

  /** Grouping lists each target site once, in ascending code order. */
  lemma GroupedSitesAscend(targets: seq<Site>)
    ensures forall s :: s in GroupedSites(targets) <==> s in targets
    ensures multiset(GroupedSites(targets)) == multiset(Distinct(targets))
    ensures var sites := GroupedSites(targets);
      forall i, j :: 0 <= i < j < |sites| ==> CodeBefore(sites[i], sites[j])
  {
    var sites := GroupedSites(targets);
    SortCodesAscending(Distinct(targets));
    assert forall s :: s in sites <==> s in multiset(Distinct(targets));
  }

  /** The status rows before sorting: the rows of the sites with data,
      followed by the backfilled rows, each target site once. */
  function UnsortedRows(targets: seq<Site>, latest: map<Site, Day>, now: Day): seq<SiteStatus> {
    var sites := GroupedSites(targets);
    DataRows(sites, latest, now) + BackfillRows(sites, latest)
  }

  /** The row of a target site says what the records say about it: its
      latest visit and the days since then, or the no-data backfill. */
  predicate RowReflects(records: seq<VisitRecord>, now: Day, r: SiteStatus) {
    if HasRecord(records, r.site) then
      && r.lastVisit.Some?
      && IsLatest(records, r.site, r.lastVisit.value)
      && r.days == now - r.lastVisit.value
      && r.priority == Classify(r.days)
      && r.required == VisitRequired(r.days)
    else
      && r.lastVisit == None
      && r.days == NO_DATA_DAYS
      && r.priority == High
      && r.required
  }

  /** The whole pipeline: the status rows in report order, exactly one per
      target site, each reflecting the records of its site. */
  function Analyze(records: seq<VisitRecord>, targets: seq<Site>, now: Day): (rows: seq<SiteStatus>)
    ensures forall s :: s in SitesOf(rows) <==> s in targets
    ensures NoDuplicates(SitesOf(rows))
    ensures |rows| == |Distinct(targets)|
    ensures forall i :: 0 <= i < |rows| ==> RowReflects(records, now, rows[i])
    ensures forall i :: 0 <= i < |rows| ==> Consistent(rows[i])
    ensures Sorted(rows)
  {
    var latest := LatestVisits(FilterTargets(records, targets));
    var unsorted := UnsortedRows(targets, latest, now);
    var rows := SortRows(unsorted);
    SortedRowsCover(targets, latest, now, rows);
    AnalyzeRowsReflect(records, targets, now, unsorted, rows);
    rows
  }

  /** A target site keeps all its records through the filter, so its facts
      are the same before and after filtering. */
  lemma FilterKeepsTargetFacts(records: seq<VisitRecord>, targets: seq<Site>, s: Site)
    requires s in targets
    ensures HasRecord(FilterTargets(records, targets), s) <==> HasRecord(records, s)
    ensures forall d :: IsLatest(FilterTargets(records, targets), s, d) <==> IsLatest(records, s, d)
  {
    var f := FilterTargets(records, targets);
    forall x: VisitRecord | x.site == s ensures x in f <==> x in records {
      assert multiset(f)[x] == multiset(records)[x];
    }
  }

  /** Filtering two stretches of records filters each. */
  lemma {:induction false} FilterTargetsConcat(a: seq<VisitRecord>, b: seq<VisitRecord>, targets: seq<Site>)
    ensures FilterTargets(a + b, targets) == FilterTargets(a, targets) + FilterTargets(b, targets)
  {
    if |a| == 0 {
      assert a + b == b;
    } else {
      assert (a + b)[0] == a[0];
      assert (a + b)[1..] == a[1..] + b;
      FilterTargetsConcat(a[1..], b, targets);
    }
  }

  /** A record of a site outside the targets, wherever it stands among the
      records, leaves the report as it is. */
  lemma OtherSitesIgnored(before: seq<VisitRecord>, after: seq<VisitRecord>, x: VisitRecord,
                          targets: seq<Site>, now: Day)
    requires x.site !in targets
    ensures Analyze(before + [x] + after, targets, now) == Analyze(before + after, targets, now)
  {
    FilterTargetsConcat(before + [x], after, targets);
    FilterTargetsConcat(before, [x], targets);
    FilterTargetsConcat(before, after, targets);
    assert [x][1..] == [];
    assert FilterTargets([x], targets) == [];
    assert FilterTargets(before, targets) + [] == FilterTargets(before, targets);
  }

  /** The data rows and the backfilled rows together name every site of
      `sites` exactly as often as `sites` does. */
  lemma {:induction false} RowsPartitionSites(sites: seq<Site>, latest: map<Site, Day>, now: Day)
    ensures multiset(SitesOf(DataRows(sites, latest, now))) + multiset(SitesOf(BackfillRows(sites, latest)))
         == multiset(sites)
  {
    if |sites| > 0 {
      RowsPartitionSites(sites[1..], latest, now);
      RowsStep(sites, latest, now);
      HeadTailMultiset(sites);
    }
  }

  /** The first site of `sites` adds its site once, to the data rows or to
      the backfill. */
  lemma RowsStep(sites: seq<Site>, latest: map<Site, Day>, now: Day)
    requires |sites| > 0
    ensures multiset(SitesOf(DataRows(sites, latest, now))) + multiset(SitesOf(BackfillRows(sites, latest)))
         == multiset{sites[0]}
          + multiset(SitesOf(DataRows(sites[1..], latest, now)))
          + multiset(SitesOf(BackfillRows(sites[1..], latest)))
  {
    var s := sites[0];
    var d := DataRows(sites[1..], latest, now);
    var b := BackfillRows(sites[1..], latest);
    if s in latest {
      var row := WithData(s, latest[s], now);
      assert DataRows(sites, latest, now) == [row] + d;
      assert BackfillRows(sites, latest) == b;
      SitesOfCons(row, d);
    } else {
      var row := NoData(s);
      assert DataRows(sites, latest, now) == d;
      assert BackfillRows(sites, latest) == [row] + b;
      SitesOfCons(row, b);
    }
  }

  /** Putting a row in front adds its site once. */
  lemma SitesOfCons(row: SiteStatus, rest: seq<SiteStatus>)
    ensures multiset(SitesOf([row] + rest)) == multiset{row.site} + multiset(SitesOf(rest))
  {
    MapSeqConcat([row], rest, SiteOf);
    assert SitesOf([row] + rest) == [row.site] + SitesOf(rest);
  }

  /** Before sorting there is one row per distinct target site. */
  lemma UnsortedRowsCover(targets: seq<Site>, latest: map<Site, Day>, now: Day)
    ensures multiset(SitesOf(UnsortedRows(targets, latest, now))) == multiset(Distinct(targets))
  {
    var sites := GroupedSites(targets);
    GroupedSitesAscend(targets);
    RowsPartitionSites(sites, latest, now);
    MapSeqConcat(DataRows(sites, latest, now), BackfillRows(sites, latest), SiteOf);
  }

  /** Sorting keeps one row per distinct target site. */
  lemma SortedRowsCover(targets: seq<Site>, latest: map<Site, Day>, now: Day, rows: seq<SiteStatus>)
    requires multiset(rows) == multiset(UnsortedRows(targets, latest, now))
    ensures forall s :: s in SitesOf(rows) <==> s in targets
    ensures NoDuplicates(SitesOf(rows))
    ensures |rows| == |Distinct(targets)|
  {
    var unsorted := UnsortedRows(targets, latest, now);
    UnsortedRowsCover(targets, latest, now);
    MapSeqPermutation(unsorted, rows, SiteOf);
    assert multiset(SitesOf(rows)) == multiset(Distinct(targets));
    PermutationNoDuplicates(Distinct(targets), SitesOf(rows));
    forall s ensures s in SitesOf(rows) <==> s in targets {
      assert s in SitesOf(rows) <==> s in multiset(SitesOf(rows));
      assert s in Distinct(targets) <==> s in multiset(Distinct(targets));
    }
    assert |SitesOf(rows)| == |multiset(SitesOf(rows))| == |multiset(Distinct(targets))|;
  }

  /** Every sorted row comes from the data rows or the backfill, and both
      kinds reflect the records of their site. */
  lemma AnalyzeRowsReflect(records: seq<VisitRecord>, targets: seq<Site>, now: Day,
                           unsorted: seq<SiteStatus>, rows: seq<SiteStatus>)
    requires unsorted == UnsortedRows(targets, LatestVisits(FilterTargets(records, targets)), now)
    requires multiset(rows) == multiset(unsorted)
    ensures forall i :: 0 <= i < |rows| ==> RowReflects(records, now, rows[i])
    ensures forall i :: 0 <= i < |rows| ==> Consistent(rows[i])
  {
    var latest := LatestVisits(FilterTargets(records, targets));
    var sites := GroupedSites(targets);
    GroupedSitesAscend(targets);
    forall i | 0 <= i < |rows|
      ensures RowReflects(records, now, rows[i]) && Consistent(rows[i])
    {
      var r := rows[i];
      assert r in multiset(unsorted);
      assert r in DataRows(sites, latest, now) || r in BackfillRows(sites, latest);
      FilterKeepsTargetFacts(records, targets, r.site);
    }
  }

  /** With a single target site the report is a single row, the one that
      reflects that site's records. */
  lemma SingleTarget(records: seq<VisitRecord>, site: Site, now: Day)
    ensures |Analyze(records, [site], now)| == 1
    ensures Analyze(records, [site], now)[0].site == site
    ensures RowReflects(records, now, Analyze(records, [site], now)[0])
  {
    assert Distinct([site]) == [site];
    var rows := Analyze(records, [site], now);
    assert SitesOf(rows)[0] in SitesOf(rows);
  }

  /** The only row, reflecting a site whose latest visit is on day `d`, is
      the row of a site last visited on day `d`. */
  lemma OneRowVisited(records: seq<VisitRecord>, site: Site, d: Day, now: Day, rows: seq<SiteStatus>)
    requires IsLatest(records, site, d)
    requires |rows| == 1 && rows[0].site == site && RowReflects(records, now, rows[0])
    ensures rows == [WithData(site, d, now)]
  {
    assert HasRecord(records, site);
    var v := rows[0].lastVisit.value;
    assert VisitRecord(site, v) in records && VisitRecord(site, d) in records;
    assert v == d;
    var r, w := rows[0], WithData(site, d, now);
    assert r.site == w.site && r.lastVisit == w.lastVisit && r.days == w.days;
    assert r.priority == w.priority && r.required == w.required;
    Singleton(rows);
  }

  /** A single target site with a latest visit on day `d` gives the one
      row of a site last visited on day `d`. */
  lemma SingleTargetVisited(records: seq<VisitRecord>, site: Site, d: Day, now: Day)
    requires IsLatest(records, site, d)
    ensures Analyze(records, [site], now) == [WithData(site, d, now)]
  {
    SingleTarget(records, site, now);
    OneRowVisited(records, site, d, now, Analyze(records, [site], now));
  }

  /** The sites of `rows` ascend in code order. */
  predicate InCodeOrder(rows: seq<SiteStatus>) {
    forall i, j :: 0 <= i < j < |rows| ==> CodeBefore(rows[i].site, rows[j].site)
  }

  /** Sites in code order give data rows in code order. */
  lemma {:induction false} DataRowsInCodeOrder(sites: seq<Site>, latest: map<Site, Day>, now: Day)
    requires forall i, j :: 0 <= i < j < |sites| ==> CodeBefore(sites[i], sites[j])
    ensures InCodeOrder(DataRows(sites, latest, now))
  {
    if |sites| > 0 {
      var rest := DataRows(sites[1..], latest, now);
      DataRowsInCodeOrder(sites[1..], latest, now);
      forall r | r in rest ensures CodeBefore(sites[0], r.site) {
        var m :| 0 <= m < |sites[1..]| && sites[1..][m] == r.site;
        assert sites[m + 1] == r.site;
      }
      if sites[0] in latest {
        ConsInCodeOrder(WithData(sites[0], latest[sites[0]], now), rest);
      }
    }
  }

  /** Sites in code order give backfilled rows in code order. */
  lemma {:induction false} BackfillRowsInCodeOrder(sites: seq<Site>, latest: map<Site, Day>)
    requires forall i, j :: 0 <= i < j < |sites| ==> CodeBefore(sites[i], sites[j])
    ensures InCodeOrder(BackfillRows(sites, latest))
  {
    if |sites| > 0 {
      var rest := BackfillRows(sites[1..], latest);
      BackfillRowsInCodeOrder(sites[1..], latest);
      forall r | r in rest ensures CodeBefore(sites[0], r.site) {
        var m :| 0 <= m < |sites[1..]| && sites[1..][m] == r.site;
        assert sites[m + 1] == r.site;
      }
      if sites[0] !in latest {
        ConsInCodeOrder(NoData(sites[0]), rest);
      }
    }
  }

  /** A row whose site sorts before every site of rows in code order can go
      in front. */
  lemma ConsInCodeOrder(x: SiteStatus, rest: seq<SiteStatus>)
    requires InCodeOrder(rest)
    requires forall r :: r in rest ==> CodeBefore(x.site, r.site)
    ensures InCodeOrder([x] + rest)
  {
    forall i, j | 0 <= i < j < |rest| + 1
      ensures CodeBefore(([x] + rest)[i].site, ([x] + rest)[j].site)
    {
      assert ([x] + rest)[j] == rest[j - 1];
      if i > 0 {
        assert ([x] + rest)[i] == rest[i - 1];
      } else {
        assert rest[j - 1] in rest;
      }
    }
  }

  /** A tie class of rows in code order is in code order. */
  lemma {:induction false} TiedInCodeOrder(rows: seq<SiteStatus>, k: (int, int))
    requires InCodeOrder(rows)
    ensures InCodeOrder(Tied(rows, k))
  {
    if |rows| > 0 {
      var rest := rows[1..];
      assert InCodeOrder(rest) by {
        forall i, j | 0 <= i < j < |rest| ensures CodeBefore(rest[i].site, rest[j].site) {
          assert rest[i] == rows[i + 1] && rest[j] == rows[j + 1];
        }
      }
      TiedInCodeOrder(rest, k);
      if KeyOf(rows[0]) == k {
        forall r | r in Tied(rest, k) ensures CodeBefore(rows[0].site, r.site) {
          var m :| 0 <= m < |rest| && rest[m] == r;
          assert rows[m + 1] == r;
        }
        ConsInCodeOrder(rows[0], Tied(rest, k));
      }
    }
  }

  /** Rows of sites with data, in code order, followed by no-data rows in
      code order. */
  predicate DatedThenUndated(rows: seq<SiteStatus>) {
    && (forall i, j :: 0 <= i < j < |rows| && rows[j].lastVisit.Some? ==> rows[i].lastVisit.Some?)
    && (forall i, j :: 0 <= i < j < |rows| && rows[i].lastVisit.Some? == rows[j].lastVisit.Some?
          ==> CodeBefore(rows[i].site, rows[j].site))
  }

  /** Dated rows in code order followed by undated rows in code order are
      dated-then-undated. */
  lemma ConcatDatedThenUndated(p: seq<SiteStatus>, q: seq<SiteStatus>)
    requires InCodeOrder(p) && InCodeOrder(q)
    requires forall r :: r in p ==> r.lastVisit.Some?
    requires forall r :: r in q ==> r.lastVisit.None?
    ensures DatedThenUndated(p + q)
  {
    var t := p + q;
    forall m | 0 <= m < |t| ensures t[m].lastVisit.Some? <==> m < |p| {
      if m < |p| {
        assert t[m] == p[m] && t[m] in p;
      } else {
        assert t[m] == q[m - |p|] && t[m] in q;
      }
    }
    forall i, j | 0 <= i < j < |t| && t[i].lastVisit.Some? == t[j].lastVisit.Some?
      ensures CodeBefore(t[i].site, t[j].site)
    {
      if j < |p| {
        assert t[i] == p[i] && t[j] == p[j];
      } else {
        assert t[i] == q[i - |p|] && t[j] == q[j - |p|];
      }
    }
  }

  /** How the report breaks ties: among the rows with the same priority and
      days, the sites with a visit come first in code order, then the
      backfilled sites in code order. Together with `StableSortUnique` this
      fixes the whole order of the report. */
  lemma AnalyzeBreaksTies(records: seq<VisitRecord>, targets: seq<Site>, now: Day, k: (int, int))
    ensures DatedThenUndated(Tied(Analyze(records, targets, now), k))
  {
    var latest := LatestVisits(FilterTargets(records, targets));
    var sites := GroupedSites(targets);
    var d, b := DataRows(sites, latest, now), BackfillRows(sites, latest);
    GroupedSitesAscend(targets);
    assert Analyze(records, targets, now) == SortRows(d + b);
    SortRowsStable(d + b, k);
    TiedConcat(d, b, k);
    DataRowsInCodeOrder(sites, latest, now);
    BackfillRowsInCodeOrder(sites, latest);
    TiedInCodeOrder(d, k);
    TiedInCodeOrder(b, k);
    ConcatDatedThenUndated(Tied(d, k), Tied(b, k));
  }
}

=== FILE: priorities.dfy ===
/**
 Classification of a site by the number of days since its last visit:
 the priority tiers, the visit-required flag, and the rank used to order
 the report.
 */
module Priorities {

  datatype Priority = High | Medium | Low

  /** More days than this means a visit is required and the site is HIGH. */
  const REQUIRED_AFTER_DAYS: int := 180

  /** More days than this (but not more than 180) makes a site MEDIUM. */
  const MEDIUM_AFTER_DAYS: int := 120

  /** The tier of a site whose last visit was `days` days ago. */
  function Classify(days: int): (p: Priority)
    ensures p == High <==> days > 180
    ensures p == Medium <==> 120 < days <= 180
    ensures p == Low <==> days <= 120
  {
    if days > REQUIRED_AFTER_DAYS then High
    else if days > MEDIUM_AFTER_DAYS then Medium
    else Low
  }

  /** Whether a site whose last visit was `days` days ago needs a visit:
      exactly when it is in the HIGH tier. */
  function VisitRequired(days: int): (required: bool)
    ensures required <==> Classify(days) == High
  {
    days > REQUIRED_AFTER_DAYS
  }

  /** Sort key of a tier: HIGH first, LOW last. */
  function Rank(p: Priority): (r: nat)
    ensures r <= 2
    ensures r == 0 <==> p == High
    ensures r == 2 <==> p == Low
  {
    match p
    case High => 0
    case Medium => 1
    case Low => 2
  }

  /** A site never drops to a less urgent tier by waiting longer. */
  lemma ClassifyMonotone(d1: int, d2: int)
    requires d1 <= d2
    ensures Rank(Classify(d2)) <= Rank(Classify(d1))
  {
  }

  /** Boundary cases: 180 days is still MEDIUM, 120 days is still LOW. */
  lemma ClassifyBoundaries()
    ensures Classify(181) == High
    ensures Classify(180) == Medium
    ensures Classify(121) == Medium
    ensures Classify(120) == Low
    ensures Classify(999) == High && VisitRequired(999)
  {
  }

  /** The rank is a faithful encoding of the tier order. */
  lemma RankInjective(p: Priority, q: Priority)
    ensures Rank(p) == Rank(q) <==> p == q
  {
  }
}

=== FILE: report.dfy ===
/**
 The presentation rules of the report that carry logic: the row highlight
 per priority, the "Priority Sites" selection, the days cell with its
 "No Data" text, and the column-width rule.
 */
module Report {
  import opened Visits
  import opened Priorities
  import opened Status
  import opened Ordering

  /** A cell background: none, or a solid RGB colour. */
  datatype Fill = NoFill | Solid(rgb: string)

  const RED_FILL: Fill := Solid("FFCCCC")
  const YELLOW_FILL: Fill := Solid("FFFF99")

  /** The widest a column is ever made. */
  const MAX_COLUMN_WIDTH: int := 50

  /** Highlight of a report row: red for HIGH, yellow for MEDIUM, none for LOW. */
  function RowFill(p: Priority): (f: Fill)
    ensures f == RED_FILL <==> p == High
    ensures f == YELLOW_FILL <==> p == Medium
    ensures f == NoFill <==> p == Low
  {
    match p
    case High => RED_FILL
    case Medium => YELLOW_FILL
    case Low => NoFill
  }

  /** A row belongs on the "Priority Sites" sheet. */
  predicate NeedsAttention(r: SiteStatus) {
    r.priority == High || r.priority == Medium
  }

  /** The rows of the "Priority Sites" sheet: the HIGH and MEDIUM rows, in
      report order. */
  function PrioritySites(rows: seq<SiteStatus>): (r: seq<SiteStatus>)
    ensures forall x :: multiset(r)[x] == if NeedsAttention(x) then multiset(rows)[x] else 0
    ensures forall i :: 0 <= i < |r| ==> NeedsAttention(r[i])
    ensures |r| <= |rows|
  {
    if |rows| == 0 then []
    else
      var rest := PrioritySites(rows[1..]);
      assert rows == [rows[0]] + rows[1..];
      if NeedsAttention(rows[0]) then [rows[0]] + rest else rest
  }

  /** The "Priority Sites" sheet keeps the order of the rows it takes. */
  lemma {:induction false} PrioritySitesKeepsOrder(rows: seq<SiteStatus>)
    requires Sorted(rows)
    ensures Sorted(PrioritySites(rows))
  {
    if |rows| > 0 {
      var rest := rows[1..];
      SortedTail(rows);
      PrioritySitesKeepsOrder(rest);
      var p := PrioritySites(rest);
      assert forall i :: 0 <= i < |rest| ==> Before(rows[0], rest[i]) by {
        forall i | 0 <= i < |rest| ensures Before(rows[0], rest[i]) {
          assert rest[i] == rows[i + 1];
        }
      }
      PrioritySitesBelow(rest, rows[0]);
      SortedCons(rows[0], p);
    }
  }

  /** The "Priority Sites" selection of two stretches of rows is the two
      selections one after the other, so it keeps the order of any input. */
  lemma {:induction false} PrioritySitesConcat(a: seq<SiteStatus>, b: seq<SiteStatus>)
    ensures PrioritySites(a + b) == PrioritySites(a) + PrioritySites(b)
  {
    if |a| == 0 {
      assert a + b == b;
    } else {
      assert (a + b)[0] == a[0];
      assert (a + b)[1..] == a[1..] + b;
      PrioritySitesConcat(a[1..], b);
    }
  }

  /** A row that comes before every row of a report comes before every row
      of its "Priority Sites" sheet. */
  lemma {:induction false} PrioritySitesBelow(rows: seq<SiteStatus>, x: SiteStatus)
    requires forall i :: 0 <= i < |rows| ==> Before(x, rows[i])
    ensures forall k :: 0 <= k < |PrioritySites(rows)| ==> Before(x, PrioritySites(rows)[k])
  {
    if |rows| > 0 {
      assert forall i :: 1 <= i < |rows| ==> rows[1..][i - 1] == rows[i];
      PrioritySitesBelow(rows[1..], x);
    }
  }

  /** A sorted report that starts with a LOW row has only LOW rows, so its
      "Priority Sites" sheet is empty. */
  lemma LowHeadAllLow(rows: seq<SiteStatus>)
    requires Sorted(rows) && |rows| > 0 && rows[0].priority == Low
    ensures forall i :: 0 <= i < |rows| ==> rows[i].priority == Low
    ensures PrioritySites(rows) == []
  {
    forall i | 0 <= i < |rows| ensures rows[i].priority == Low {
      if i > 0 {
        assert Before(rows[0], rows[i]);
      }
    }
    var p := PrioritySites(rows);
    forall x ensures multiset(p)[x] == 0 {
      if x in rows {
        var m :| 0 <= m < |rows| && rows[m] == x;
        assert !NeedsAttention(x);
      } else {
        assert multiset(rows)[x] == 0;
      }
    }
    assert multiset(p) == multiset{};
  }

  /** A row followed by a prefix of the rows after it is a prefix. */
  lemma ConsPrefix(rows: seq<SiteStatus>, p: seq<SiteStatus>)
    requires |rows| > 0
    requires |p| < |rows| && p == rows[1..][..|p|]
    ensures [rows[0]] + p == rows[..|p| + 1]
  {
  }

  /** On a sorted report, "Priority Sites" is the leading part of the main
      sheet: every HIGH and MEDIUM row comes before every LOW row. */
  lemma {:induction false} PrioritySitesIsPrefix(rows: seq<SiteStatus>)
    requires Sorted(rows)
    ensures PrioritySites(rows) == rows[..|PrioritySites(rows)|]
    ensures forall i :: |PrioritySites(rows)| <= i < |rows| ==> rows[i].priority == Low
  {
    if |rows| > 0 {
      var rest := rows[1..];
      SortedTail(rows);
      PrioritySitesIsPrefix(rest);
      var p := PrioritySites(rest);
      if NeedsAttention(rows[0]) {
        assert PrioritySites(rows) == [rows[0]] + p;
        ConsPrefix(rows, p);
        forall i | |p| + 1 <= i < |rows| ensures rows[i].priority == Low {
          assert rows[i] == rest[i - 1];
        }
      } else {
        LowHeadAllLow(rows);
        assert PrioritySites(rows) == [];
      }
    }
  }

  /** A row is highlighted exactly when it is also listed on the
      "Priority Sites" sheet. */
  lemma FillMarksPrioritySites(rows: seq<SiteStatus>, i: int)
    requires 0 <= i < |rows|
    ensures RowFill(rows[i].priority) != NoFill <==> rows[i] in PrioritySites(rows)
  {
    var x := rows[i];
    assert x in multiset(rows);
    assert x in PrioritySites(rows) <==> x in multiset(PrioritySites(rows));
  }

  /** A cell of the days column: a number, or the "No Data" text. */
  datatype Cell = Number(n: int) | Text(text: string)

  /** The days cell of a row. The sentinel value is replaced by "No Data",
      whatever row it belongs to. */
  function DaysCell(days: int): (c: Cell)
    ensures c == Text("No Data") <==> days == NO_DATA_DAYS
    ensures days != NO_DATA_DAYS ==> c == Number(days)
  {
    if days == NO_DATA_DAYS then Text("No Data") else Number(days)
  }

  /** A backfilled row shows "No Data" in its days column. */
  lemma NoDataRowShowsNoData(site: string)
    ensures DaysCell(NoData(site).days) == Text("No Data")
  {
  }

  /** A visited site whose last visit was 999 days ago shows "No Data" too,
      although its date column shows the date. */
  lemma VisitedRowShowsNoData(site: string, last: int, now: int)
    requires now - last == NO_DATA_DAYS
    ensures WithData(site, last, now).lastVisit == Some(last)
    ensures DaysCell(WithData(site, last, now).days) == Text("No Data")
  {
  }

  /** The width of a column: two more than its longest cell text, capped
      at 50. */
  method ColumnWidth(cells: seq<string>) returns (width: int)
    ensures width <= MAX_COLUMN_WIDTH
    ensures forall i :: 0 <= i < |cells| ==> |cells[i]| + 2 <= width || width == MAX_COLUMN_WIDTH
    ensures width < MAX_COLUMN_WIDTH ==> width == 2 || exists i :: 0 <= i < |cells| && width == |cells[i]| + 2
    ensures width == MAX_COLUMN_WIDTH ==> exists i :: 0 <= i < |cells| && |cells[i]| + 2 >= MAX_COLUMN_WIDTH
    ensures width >= 2
  {
    var maxLength := 0;
    var k := 0;
    while k < |cells|
      invariant 0 <= k <= |cells|
      invariant forall i :: 0 <= i < k ==> |cells[i]| <= maxLength
      invariant maxLength == 0 || exists i :: 0 <= i < k && maxLength == |cells[i]|
    {
      if |cells[k]| > maxLength {
        maxLength := |cells[k]|;
      }
      k := k + 1;
    }
    width := if maxLength + 2 < MAX_COLUMN_WIDTH then maxLength + 2 else MAX_COLUMN_WIDTH;
  }
}

=== FILE: scenarios.dfy ===
/**
 Worked examples of the pipeline, with dates as day numbers counted from
 1970-01-01: 2024-01-01 is day 19723, 2024-06-01 is day 19875 and
 2024-08-01 is day 19936.
 */
module Scenarios {
  import opened Visits
  import opened Priorities
  import opened Status
  import opened SiteOrder
  import opened Pipeline

  /** Two visits to NANT: the later one counts, 61 days before the reference
      date, so NANT is LOW and needs no visit. */
  lemma TwoVisitsToNant()
    ensures Analyze([VisitRecord("NANT", 19723), VisitRecord("NANT", 19875)], ["NANT"], 19936)
         == [SiteStatus("NANT", Some(19875), 61, Low, false)]
  {
    var records := [VisitRecord("NANT", 19723), VisitRecord("NANT", 19875)];
    assert records[1] in records;
    SingleTargetVisited(records, "NANT", 19875, 19936);
  }

  /** A target site without records is backfilled as HIGH with no data. */
  lemma AmagWithoutRecords(now: Day)
    ensures Analyze([], ["AMAG"], now) == [SiteStatus("AMAG", None, 999, High, true)]
  {
    SingleTarget([], "AMAG", now);
    var rows := Analyze([], ["AMAG"], now);
    assert rows == [rows[0]];
  }

  /** When the only record belongs to another site, the target site is
      backfilled as having no data. */
  lemma OnlyOtherSiteRecorded(other: Site, target: Site, d: Day, now: Day)
    requires other != target
    ensures Analyze([VisitRecord(other, d)], [target], now) == [NoData(target)]
  {
    var records := [VisitRecord(other, d)];
    SingleTarget(records, target, now);
    assert !HasRecord(records, target);
    var rows := Analyze(records, [target], now);
    assert rows == [rows[0]];
  }

  /** Grouping lists BLCK before NANT, whatever the order of the target
      list. When the two tie on priority and days and both have a visit, or
      both are backfilled, the report keeps that order; a dated site still
      comes before a backfilled one it ties with. */
  lemma TiedSitesInCodeOrder()
    ensures GroupedSites(["NANT", "BLCK"]) == ["BLCK", "NANT"]
  {
    assert Distinct(["NANT", "BLCK"]) == ["NANT", "BLCK"];
    assert SortCodes(["BLCK"]) == ["BLCK"];
    assert !CodeAtMost("NANT", "BLCK");
    assert InsertCode("NANT", ["BLCK"]) == ["BLCK", "NANT"];
  }

  /** The configured target sites are 23 different sites. */
  lemma ConfiguredSitesDistinct()
    ensures |TARGET_SITES| == 23 && NoDuplicates(TARGET_SITES)
  {
  }

  /** The report over the configured target sites has 23 rows, whatever the
      sheet holds. */
  lemma ConfiguredReportSize(records: seq<VisitRecord>, now: Day)
    ensures |Analyze(records, TARGET_SITES, now)| == 23
  {
    ConfiguredSitesDistinct();
  }
}

=== FILE: sheet_url.dfy ===
/**
 Extraction of the spreadsheet key from a Google Sheets URL, written as the
 script writes it with Python's `str.split`, together with the plain reading
 "the text after the first /d/ up to the next /".
 */
module SheetUrl {
  import opened Visits

  /** `pat` occurs in `s` starting at position `k`. */
  predicate OccursAt(s: string, pat: string, k: int) {
    0 <= k && k + |pat| <= |s| && s[k..k + |pat|] == pat
  }

  /** The first occurrence of `pat` in `s` at or after `start`. */
  function FindFrom(s: string, pat: string, start: nat): (r: Option<nat>)
    requires |pat| > 0 && start <= |s|
    ensures r.Some? ==> start <= r.value && OccursAt(s, pat, r.value)
    ensures r.Some? ==> forall k :: start <= k < r.value ==> !OccursAt(s, pat, k)
    ensures r.None? ==> forall k :: start <= k ==> !OccursAt(s, pat, k)
    decreases |s| - start
  {
    if start + |pat| > |s| then None
    else if s[start..start + |pat|] == pat then Some(start)
    else FindFrom(s, pat, start + 1)
  }

  /** The first occurrence of `pat` in `s`; Python's `pat in s` is `.Some?`. */
  function Find(s: string, pat: string): (r: Option<nat>)
    requires |pat| > 0
    ensures r.Some? ==> OccursAt(s, pat, r.value)
    ensures r.Some? ==> forall k :: 0 <= k < r.value ==> !OccursAt(s, pat, k)
    ensures r.None? ==> forall k :: !OccursAt(s, pat, k)
  {
    FindFrom(s, pat, 0)
  }

  /** Python's `sep.join(parts)`. */
  function Join(parts: seq<string>, sep: string): string
    requires |parts| >= 1
  {
    if |parts| == 1 then parts[0] else parts[0] + sep + Join(parts[1..], sep)
  }

  /** Python's `s.split(sep)` for a non-empty separator: the pieces between
      the non-overlapping occurrences of `sep`, found from left to right. */
  function Split(s: string, sep: string): (parts: seq<string>)
    requires |sep| > 0
    ensures |parts| >= 1
    ensures Join(parts, sep) == s
    ensures forall i, k :: 0 <= i < |parts| ==> !OccursAt(parts[i], sep, k)
    ensures forall i, k :: 0 <= i < |parts| - 1 && 0 <= k < |parts[i]| ==> !OccursAt(parts[i] + sep, sep, k)
    ensures Find(s, sep).None? ==> parts == [s]
    ensures Find(s, sep).Some? ==> |parts| >= 2 && parts[0] == s[..Find(s, sep).value]
    decreases |s|
  {
    match Find(s, sep)
    case None => [s]
    case Some(k) =>
      var rest := Split(s[k + |sep|..], sep);
      var parts := [s[..k]] + rest;
      assert s == s[..k] + sep + s[k + |sep|..] by {
        assert s[k..k + |sep|] == sep;
        assert s == s[..k] + s[k..k + |sep|] + s[k + |sep|..];
      }
      assert parts[1..] == rest;
      forall k' ensures OccursAt(s[..k], sep, k') ==> 0 <= k' < k && OccursAt(s, sep, k') {
        if OccursAt(s[..k], sep, k') {
          assert s[..k][k'..k' + |sep|] == s[k'..k' + |sep|];
        }
      }
      assert s[..k] + sep == s[..k + |sep|];
      forall k' | 0 <= k' < k ensures OccursAt(s[..k] + sep, sep, k') ==> OccursAt(s, sep, k') {
        assert (s[..k] + sep)[k'..k' + |sep|] == s[k'..k' + |sep|];
      }
      assert forall i :: 1 <= i < |parts| ==> parts[i] == rest[i - 1];
      parts
  }

  /** The text of `s` before its first `c`, or all of `s` if it has none. */
  function TakeUntil(s: string, c: char): (t: string)
    ensures t <= s
    ensures c !in t
    ensures |t| < |s| ==> s[|t|] == c
  {
    if |s| == 0 || s[0] == c then "" else [s[0]] + TakeUntil(s[1..], c)
  }

  /** TakeUntil is the only prefix without `c` that stops at a `c` or at
      the end. */
  lemma {:induction false} TakeUntilUnique(s: string, c: char, t: string)
    requires t <= s && c !in t
    requires |t| == |s| || s[|t|] == c
    ensures t == TakeUntil(s, c)
  {
    if |s| > 0 && s[0] != c {
      TakeUntilUnique(s[1..], c, t[1..]);
    }
  }

  /** The first piece of a split at a one-character separator is the text
      before the first occurrence of that character. */
  lemma SplitFirstAtChar(s: string, c: char)
    ensures Split(s, [c])[0] == TakeUntil(s, c)
  {
    var t := Split(s, [c])[0];
    match Find(s, [c])
    case None =>
      forall m | 0 <= m < |s| ensures s[m] != c {
        assert !OccursAt(s, [c], m);
      }
      TakeUntilUnique(s, c, s);
    case Some(k) =>
      assert t == s[..k];
      forall m | 0 <= m < k ensures s[m] != c {
        assert !OccursAt(s, [c], m);
      }
      assert s[k..k + 1] == [c];
      TakeUntilUnique(s, c, t);
  }

  /** Cutting a text at a `c` (or at its end) does not change the text
      before its first `c`. */
  lemma {:induction false} TakeUntilCut(s: string, c: char, j: int)
    requires 0 <= j <= |s|
    requires j == |s| || s[j] == c
    ensures TakeUntil(s[..j], c) == TakeUntil(s, c)
  {
    var t := TakeUntil(s[..j], c);
    assert t <= s;
    if |t| == j && j < |s| {
      assert s[|t|] == c;
    }
    TakeUntilUnique(s, c, t);
  }

  /** The spreadsheet key of a link, by the split expression: the text after
      the first "/d/" up to the next "/", or the whole link when it has no
      "/d/". */
  function SpreadsheetId(url: string): (id: string)
    ensures Find(url, "/d/").None? ==> id == url
    ensures Find(url, "/d/").Some? ==>
      id == TakeUntil(url[Find(url, "/d/").value + 3..], '/')
  {
    if Find(url, "/d/").Some? then
      var k := Find(url, "/d/").value;
      var rest := url[k + 3..];
      assert Split(url, "/d/")[1] == Split(rest, "/d/")[0];
      var j := match Find(rest, "/d/") case Some(j) => j case None => |rest|;
      assert Split(rest, "/d/")[0] == rest[..j];
      assert j < |rest| ==> rest[j] == '/' by {
        if j < |rest| {
          assert OccursAt(rest, "/d/", j);
          assert rest[j..j + 3] == "/d/";
        }
      }
      SplitFirstAtChar(rest[..j], '/');
      TakeUntilCut(rest, '/', j);
      Split(Split(url, "/d/")[1], "/")[0]
    else url
  }

  /** The key never contains "/" when the link has a "/d/", and it is a piece
      of the link. */
  lemma SpreadsheetIdShape(url: string)
    ensures Find(url, "/d/").Some? ==> '/' !in SpreadsheetId(url)
    ensures exists k :: OccursAt(url, SpreadsheetId(url), k)
  {
    var id := SpreadsheetId(url);
    if Find(url, "/d/").Some? {
      var k := Find(url, "/d/").value;
      var rest := url[k + 3..];
      assert id <= rest;
      assert url[k + 3..k + 3 + |id|] == rest[..|id|] == id;
      assert OccursAt(url, id, k + 3);
    } else {
      assert OccursAt(url, id, 0);
    }
  }
}

=== FILE: site_order.dfy ===
/**
 The order of site codes: Python's comparison of strings, character by
 character by code point, a proper prefix coming first. Grouping the visits
 by site lists the sites in this order.
 */
module SiteOrder {
  import opened Visits

  /** `a` sorts strictly before `b`. */
  predicate CodeBefore(a: string, b: string)
    decreases |a|
  {
    if |a| == 0 then |b| > 0
    else if |b| == 0 then false
    else a[0] < b[0] || (a[0] == b[0] && CodeBefore(a[1..], b[1..]))
  }

  /** `a` sorts before `b` or is `b`. */
  predicate CodeAtMost(a: string, b: string) {
    a == b || CodeBefore(a, b)
  }

  /** Of two different codes exactly one sorts first; a code never sorts
      before itself. */
  lemma {:induction false} CodeTotal(a: string, b: string)
    ensures a == b || CodeBefore(a, b) || CodeBefore(b, a)
    ensures !(CodeBefore(a, b) && CodeBefore(b, a))
    decreases |a|
  {
    if |a| > 0 && |b| > 0 && a[0] == b[0] {
      CodeTotal(a[1..], b[1..]);
      if a[1..] == b[1..] {
        assert a == [a[0]] + a[1..] && b == [b[0]] + b[1..];
      }
    }
  }

  /** The order of codes is transitive. */
  lemma {:induction false} CodeTransitive(a: string, b: string, c: string)
    requires CodeAtMost(a, b) && CodeAtMost(b, c)
    ensures CodeAtMost(a, c)
    decreases |a|
  {
    if a != b && b != c && |a| > 0 && a[0] == b[0] && b[0] == c[0] {
      CodeTransitive(a[1..], b[1..], c[1..]);
      if a[1..] == c[1..] {
        assert a == [a[0]] + a[1..] && c == [c[0]] + c[1..];
      }
    }
  }

  predicate CodesSorted(s: seq<Site>) {
    forall i, j :: 0 <= i < j < |s| ==> CodeAtMost(s[i], s[j])
  }

  /** `x` inserted into the sorted codes `s` at its place. */
  function InsertCode(x: Site, s: seq<Site>): (r: seq<Site>)
    requires CodesSorted(s)
    ensures CodesSorted(r)
    ensures multiset(r) == multiset(s) + multiset{x}
  {
    if |s| == 0 then [x]
    else if CodeAtMost(x, s[0]) then
      assert CodesSorted([x] + s) by {
        forall i, j | 0 <= i < j < |s| + 1 ensures CodeAtMost(([x] + s)[i], ([x] + s)[j]) {
          if i == 0 && j > 1 {
            CodeTransitive(x, s[0], s[j - 1]);
          }
        }
      }
      [x] + s
    else
      var t := InsertCode(x, s[1..]);
      assert s == [s[0]] + s[1..];
      CodeTotal(x, s[0]);
      InsertCodeKeepsHeadFirst(x, s, t);
      [s[0]] + t
  }

  /** The head of sorted codes that sorts before `x` sorts before every code
      of the tail with `x` added. */
  lemma InsertCodeKeepsHeadFirst(x: Site, s: seq<Site>, t: seq<Site>)
    requires CodesSorted(s) && |s| > 0 && CodeAtMost(s[0], x)
    requires CodesSorted(t)
    requires multiset(t) == multiset(s[1..]) + multiset{x}
    ensures CodesSorted([s[0]] + t)
  {
    forall k | 0 <= k < |t| ensures CodeAtMost(s[0], t[k]) {
      assert t[k] in multiset(t);
      if t[k] != x {
        assert t[k] in multiset(s[1..]);
        var m :| 0 <= m < |s[1..]| && s[1..][m] == t[k];
        assert s[m + 1] == t[k];
      }
    }
    forall i, j | 0 <= i < j < |t| + 1 ensures CodeAtMost(([s[0]] + t)[i], ([s[0]] + t)[j]) {
      if i > 0 {
        assert ([s[0]] + t)[i] == t[i - 1] && ([s[0]] + t)[j] == t[j - 1];
      }
    }
  }

  /** The codes in ascending order. */
  function SortCodes(s: seq<Site>): (r: seq<Site>)
    ensures CodesSorted(r)
    ensures multiset(r) == multiset(s)
  {
    if |s| == 0 then []
    else
      assert s == [s[0]] + s[1..];
      InsertCode(s[0], SortCodes(s[1..]))
  }

  /** Codes without repetition come out strictly ascending, each once. */
  lemma SortCodesAscending(s: seq<Site>)
    requires NoDuplicates(s)
    ensures NoDuplicates(SortCodes(s))
    ensures forall i, j :: 0 <= i < j < |SortCodes(s)| ==> CodeBefore(SortCodes(s)[i], SortCodes(s)[j])
  {
    var r := SortCodes(s);
    PermutationNoDuplicates(s, r);
    forall i, j | 0 <= i < j < |r| ensures CodeBefore(r[i], r[j]) {
      assert CodeAtMost(r[i], r[j]) && r[i] != r[j];
    }
  }
}

=== FILE: status.dfy ===
/**
 One row of the analysis: the recency status of a single target site.
 */
module Status {
  import opened Visits
  import opened Priorities

  /** Days value written for a target site that has no visit record. */
  const NO_DATA_DAYS: int := 999

  datatype SiteStatus = SiteStatus(
    site: Site,
    lastVisit: Option<Day>,   // None: no record for the site
    days: int,                // days since lastVisit, or NO_DATA_DAYS
    priority: Priority,
    required: bool            // the "Visit_Required" column
  )

  /** Priority and the required flag are the ones the days value dictates. */
  predicate Consistent(r: SiteStatus) {
    r.priority == Classify(r.days) && r.required == VisitRequired(r.days)
  }

  /** The row for a site whose most recent visit was on day `last`. */
  function WithData(site: Site, last: Day, now: Day): (r: SiteStatus)
    ensures r.site == site && r.lastVisit == Some(last)
    ensures r.days == now - last
    ensures Consistent(r)
  {
    var days := now - last;
    SiteStatus(site, Some(last), days, Classify(days), VisitRequired(days))
  }

  /** The backfilled row for a target site without any visit record. */
  function NoData(site: Site): (r: SiteStatus)
    ensures r.site == site && r.lastVisit == None
    ensures r.days == NO_DATA_DAYS
    ensures r.priority == High && r.required
    ensures Consistent(r)
  {
    SiteStatus(site, None, NO_DATA_DAYS, High, true)
  }

  /** In a consistent row a visit is required exactly when the row is HIGH. */
  lemma RequiredIffHighRow(r: SiteStatus)
    requires Consistent(r)
    ensures r.required <==> r.priority == High
  {
    assert r.required == VisitRequired(r.days);
  }
}

=== FILE: summary.dfy ===
/**
 The summary statistics of the report, computed from the status rows.

 The script recognises "no data" rows by the sentinel value of their days
 column. `Summarize` reproduces that as written; `SummarizeByDate` is the
 variant that asks whether the row has a last-visit date instead, and the
 lemmas below show where the two part ways.
 */
module Summary {
  import opened Visits
  import opened Priorities
  import opened Status
  import opened Pipeline

  /** The statistics of the "Summary" sheet. The average is kept as the sum
      and the number of the days values it is taken over. */
  datatype Stats = Stats(
    totalSites: nat,
    requiringVisit: nat,
    sitesOk: nat,
    high: nat,
    medium: nat,
    low: nat,
    knownDaysCount: nat,
    knownDaysSum: int,
    maxDays: Option<int>,
    noData: nat
  )

  /** The number of rows satisfying `p`. */
  function CountWhere(rows: seq<SiteStatus>, p: SiteStatus -> bool): (n: nat)
    ensures n <= |rows|
    ensures n == 0 <==> forall i :: 0 <= i < |rows| ==> !p(rows[i])
    ensures n == |rows| <==> forall i :: 0 <= i < |rows| ==> p(rows[i])
  {
    if |rows| == 0 then 0
    else (if p(rows[0]) then 1 else 0) + CountWhere(rows[1..], p)
  }

  /** The sum of the days of the rows satisfying `p`. */
  function SumDaysWhere(rows: seq<SiteStatus>, p: SiteStatus -> bool): int {
    if |rows| == 0 then 0
    else (if p(rows[0]) then rows[0].days else 0) + SumDaysWhere(rows[1..], p)
  }

  /** The larger of two optional maxima; a missing one gives way. */
  function MaxOf(x: Option<int>, y: Option<int>): Option<int> {
    if x.None? then y
    else if y.None? || x.value >= y.value then x
    else y
  }

  /** The largest days value among the rows satisfying `p`, if there is one. */
  function MaxDaysWhere(rows: seq<SiteStatus>, p: SiteStatus -> bool): (m: Option<int>)
    ensures m.None? <==> forall i :: 0 <= i < |rows| ==> !p(rows[i])
    ensures m.Some? ==> exists i :: 0 <= i < |rows| && p(rows[i]) && rows[i].days == m.value
    ensures m.Some? ==> forall i :: 0 <= i < |rows| && p(rows[i]) ==> rows[i].days <= m.value
  {
    if |rows| == 0 then None
    else
      var rest := MaxDaysWhere(rows[1..], p);
      assert forall i :: 1 <= i < |rows| ==> rows[i] == rows[1..][i - 1];
      MaxOf(if p(rows[0]) then Some(rows[0].days) else None, rest)
  }

  /** The maximum over rows is the larger of the first row's days, when it
      qualifies, and the maximum over the rest. */
  lemma MaxStep(rows: seq<SiteStatus>, p: SiteStatus -> bool)
    requires |rows| > 0
    ensures MaxDaysWhere(rows, p)
         == MaxOf(if p(rows[0]) then Some(rows[0].days) else None, MaxDaysWhere(rows[1..], p))
  {
  }

  /** Taking the larger of three maxima does not depend on the grouping. */
  lemma MaxOfAssociative(x: Option<int>, y: Option<int>, z: Option<int>)
    ensures MaxOf(x, MaxOf(y, z)) == MaxOf(MaxOf(x, y), z)
  {
  }

  /** On one row the count, sum and maximum see just that row, when it
      qualifies. With the concatenation lemmas below this fixes them on every
      sequence of rows. */
  lemma WhereSingle(r: SiteStatus, p: SiteStatus -> bool)
    ensures CountWhere([r], p) == if p(r) then 1 else 0
    ensures SumDaysWhere([r], p) == if p(r) then r.days else 0
    ensures MaxDaysWhere([r], p) == if p(r) then Some(r.days) else None
  {
    assert [r][1..] == [];
  }

  /** The count over two stretches of rows is the sum of the counts. */
  lemma {:induction false} CountConcat(a: seq<SiteStatus>, b: seq<SiteStatus>, p: SiteStatus -> bool)
    ensures CountWhere(a + b, p) == CountWhere(a, p) + CountWhere(b, p)
  {
    if |a| == 0 {
      assert a + b == b;
    } else {
      assert (a + b)[0] == a[0];
      assert (a + b)[1..] == a[1..] + b;
      CountConcat(a[1..], b, p);
    }
  }

  /** The sum of days over two stretches of rows is the sum of the sums. */
  lemma {:induction false} SumConcat(a: seq<SiteStatus>, b: seq<SiteStatus>, p: SiteStatus -> bool)
    ensures SumDaysWhere(a + b, p) == SumDaysWhere(a, p) + SumDaysWhere(b, p)
  {
    if |a| == 0 {
      assert a + b == b;
    } else {
      assert (a + b)[0] == a[0];
      assert (a + b)[1..] == a[1..] + b;
      SumConcat(a[1..], b, p);
    }
  }

  /** The maximum over two stretches of rows is the larger maximum. */
  lemma {:induction false} MaxConcat(a: seq<SiteStatus>, b: seq<SiteStatus>, p: SiteStatus -> bool)
    ensures MaxDaysWhere(a + b, p) == MaxOf(MaxDaysWhere(a, p), MaxDaysWhere(b, p))
  {
    if |a| == 0 {
      assert a + b == b;
    } else {
      assert (a + b)[0] == a[0];
      assert (a + b)[1..] == a[1..] + b;
      MaxConcat(a[1..], b, p);
      MaxStep(a, p);
      MaxStep(a + b, p);
      var head := if p(a[0]) then Some(a[0].days) else None;
      MaxOfAssociative(head, MaxDaysWhere(a[1..], p), MaxDaysWhere(b, p));
    }
  }

  /** When every qualifying row has at most `bound` days, their sum is at
      most `bound` times their number. */
  lemma {:induction false} SumDaysBound(rows: seq<SiteStatus>, p: SiteStatus -> bool, bound: int)
    requires forall i :: 0 <= i < |rows| && p(rows[i]) ==> rows[i].days <= bound
    ensures SumDaysWhere(rows, p) <= CountWhere(rows, p) * bound
  {
    if |rows| > 0 {
      assert forall i :: 1 <= i < |rows| ==> rows[i] == rows[1..][i - 1];
      SumDaysBound(rows[1..], p, bound);
      var c := CountWhere(rows[1..], p);
      assert (c + 1) * bound == c * bound + bound;
    }
  }

  /** The sum of the qualifying days is at most their number times their
      maximum: the average never exceeds the maximum. */
  lemma AverageAtMostMax(rows: seq<SiteStatus>, p: SiteStatus -> bool)
    requires MaxDaysWhere(rows, p).Some?
    ensures SumDaysWhere(rows, p) <= CountWhere(rows, p) * MaxDaysWhere(rows, p).value
    ensures CountWhere(rows, p) > 0
  {
    SumDaysBound(rows, p, MaxDaysWhere(rows, p).value);
  }

  predicate IsRequired(r: SiteStatus) { r.required }
  predicate NotRequired(r: SiteStatus) { !r.required }
  predicate IsHigh(r: SiteStatus) { r.priority == High }
  predicate IsMedium(r: SiteStatus) { r.priority == Medium }
  predicate IsLow(r: SiteStatus) { r.priority == Low }
  predicate HasDate(r: SiteStatus) { r.lastVisit.Some? }
  predicate LacksDate(r: SiteStatus) { r.lastVisit.None? }

  /** Rows whose days value the script reads as a real count. */
  predicate BelowSentinel(r: SiteStatus) {
    r.days < NO_DATA_DAYS
  }

  /** Rows the script counts as "Sites with No Data". */
  predicate AtSentinel(r: SiteStatus) {
    r.days == NO_DATA_DAYS
  }

  /** The summary as the script computes it: "no data" is the sentinel days
      value, and the average and maximum skip those rows. */
  function Summarize(rows: seq<SiteStatus>): (s: Stats)
    ensures s.totalSites == |rows|
    ensures s.requiringVisit == CountWhere(rows, IsRequired)
    ensures s.sitesOk == CountWhere(rows, NotRequired)
    ensures s.high == CountWhere(rows, IsHigh)
    ensures s.medium == CountWhere(rows, IsMedium)
    ensures s.low == CountWhere(rows, IsLow)
    ensures s.knownDaysCount == CountWhere(rows, BelowSentinel)
    ensures s.knownDaysSum == SumDaysWhere(rows, BelowSentinel)
    ensures s.maxDays == MaxDaysWhere(rows, BelowSentinel)
    ensures s.noData == CountWhere(rows, AtSentinel)
    ensures s.requiringVisit + s.sitesOk == s.totalSites
    ensures s.high + s.medium + s.low == s.totalSites
    ensures s.knownDaysCount + s.noData <= s.totalSites
  {
    CountComplement(rows, IsRequired, NotRequired);
    CountTiers(rows);
    CountDisjoint(rows, BelowSentinel, AtSentinel);
    Stats(
      |rows|,
      CountWhere(rows, IsRequired),
      CountWhere(rows, NotRequired),
      CountWhere(rows, IsHigh),
      CountWhere(rows, IsMedium),
      CountWhere(rows, IsLow),
      CountWhere(rows, BelowSentinel),
      SumDaysWhere(rows, BelowSentinel),
      MaxDaysWhere(rows, BelowSentinel),
      CountWhere(rows, AtSentinel)
    )
  }

  /** The summary with "no data" read from the missing date rather than from
      the days value. */
  function SummarizeByDate(rows: seq<SiteStatus>): (s: Stats)
    ensures s.totalSites == |rows|
    ensures s.requiringVisit == CountWhere(rows, IsRequired)
    ensures s.sitesOk == CountWhere(rows, NotRequired)
    ensures s.high == CountWhere(rows, IsHigh)
    ensures s.medium == CountWhere(rows, IsMedium)
    ensures s.low == CountWhere(rows, IsLow)
    ensures s.knownDaysCount == CountWhere(rows, HasDate)
    ensures s.knownDaysSum == SumDaysWhere(rows, HasDate)
    ensures s.maxDays == MaxDaysWhere(rows, HasDate)
    ensures s.noData == CountWhere(rows, LacksDate)
    ensures s.requiringVisit + s.sitesOk == s.totalSites
    ensures s.high + s.medium + s.low == s.totalSites
    ensures s.knownDaysCount + s.noData == s.totalSites
  {
    CountComplement(rows, IsRequired, NotRequired);
    CountTiers(rows);
    CountComplement(rows, HasDate, LacksDate);
    Stats(
      |rows|,
      CountWhere(rows, IsRequired),
      CountWhere(rows, NotRequired),
      CountWhere(rows, IsHigh),
      CountWhere(rows, IsMedium),
      CountWhere(rows, IsLow),
      CountWhere(rows, HasDate),
      SumDaysWhere(rows, HasDate),
      MaxDaysWhere(rows, HasDate),
      CountWhere(rows, LacksDate)
    )
  }

  /** The statistics of two stretches of rows put together: counts and sums
      add, the maximum is the larger one. */
  function Merge(s: Stats, t: Stats): Stats {
    Stats(
      s.totalSites + t.totalSites,
      s.requiringVisit + t.requiringVisit,
      s.sitesOk + t.sitesOk,
      s.high + t.high,
      s.medium + t.medium,
      s.low + t.low,
      s.knownDaysCount + t.knownDaysCount,
      s.knownDaysSum + t.knownDaysSum,
      MaxOf(s.maxDays, t.maxDays),
      s.noData + t.noData
    )
  }

  /** Statistics whose every field combines those of `x` and `y` are their
      merge. */
  lemma MergeFields(s: Stats, x: Stats, y: Stats)
    requires s.totalSites == x.totalSites + y.totalSites
    requires s.requiringVisit == x.requiringVisit + y.requiringVisit
    requires s.sitesOk == x.sitesOk + y.sitesOk
    requires s.high == x.high + y.high
    requires s.medium == x.medium + y.medium
    requires s.low == x.low + y.low
    requires s.knownDaysCount == x.knownDaysCount + y.knownDaysCount
    requires s.knownDaysSum == x.knownDaysSum + y.knownDaysSum
    requires s.maxDays == MaxOf(x.maxDays, y.maxDays)
    requires s.noData == x.noData + y.noData
    ensures s == Merge(x, y)
  {
  }

  /** The summary of one row: it counts once, in its own tier and state, and
      its days enter the average and the maximum unless they are the
      sentinel or beyond. */
  lemma SummarizeSingle(r: SiteStatus)
    ensures Summarize([r]) == Stats(
      1,
      if r.required then 1 else 0,
      if r.required then 0 else 1,
      if r.priority == High then 1 else 0,
      if r.priority == Medium then 1 else 0,
      if r.priority == Low then 1 else 0,
      if r.days < NO_DATA_DAYS then 1 else 0,
      if r.days < NO_DATA_DAYS then r.days else 0,
      if r.days < NO_DATA_DAYS then Some(r.days) else None,
      if r.days == NO_DATA_DAYS then 1 else 0)
  {
    WhereSingle(r, IsRequired);
    WhereSingle(r, NotRequired);
    WhereSingle(r, IsHigh);
    WhereSingle(r, IsMedium);
    WhereSingle(r, IsLow);
    WhereSingle(r, BelowSentinel);
    WhereSingle(r, AtSentinel);
  }

  /** The summary of two stretches of rows is their summaries merged. */
  lemma SummarizeConcat(a: seq<SiteStatus>, b: seq<SiteStatus>)
    ensures Summarize(a + b) == Merge(Summarize(a), Summarize(b))
  {
    SummarizeTallyConcat(a, b);
    SummarizeDaysConcat(a, b);
    MergeFields(Summarize(a + b), Summarize(a), Summarize(b));
  }

  /** The site, visit and tier counts of the summary add over two stretches. */
  lemma SummarizeTallyConcat(a: seq<SiteStatus>, b: seq<SiteStatus>)
    ensures Summarize(a + b).totalSites == Summarize(a).totalSites + Summarize(b).totalSites
    ensures Summarize(a + b).requiringVisit == Summarize(a).requiringVisit + Summarize(b).requiringVisit
    ensures Summarize(a + b).sitesOk == Summarize(a).sitesOk + Summarize(b).sitesOk
    ensures Summarize(a + b).high == Summarize(a).high + Summarize(b).high
    ensures Summarize(a + b).medium == Summarize(a).medium + Summarize(b).medium
    ensures Summarize(a + b).low == Summarize(a).low + Summarize(b).low
  {
    TallyConcat(a, b);
  }

  /** The days fields of the summary combine over two stretches. */
  lemma SummarizeDaysConcat(a: seq<SiteStatus>, b: seq<SiteStatus>)
    ensures Summarize(a + b).knownDaysCount == Summarize(a).knownDaysCount + Summarize(b).knownDaysCount
    ensures Summarize(a + b).knownDaysSum == Summarize(a).knownDaysSum + Summarize(b).knownDaysSum
    ensures Summarize(a + b).maxDays == MaxOf(Summarize(a).maxDays, Summarize(b).maxDays)
    ensures Summarize(a + b).noData == Summarize(a).noData + Summarize(b).noData
  {
    DaysConcat(a, b, BelowSentinel, AtSentinel);
  }

  /** The summary by date of one row: its days enter the average and the
      maximum exactly when it has a date. */
  lemma SummarizeByDateSingle(r: SiteStatus)
    ensures SummarizeByDate([r]) == Stats(
      1,
      if r.required then 1 else 0,
      if r.required then 0 else 1,
      if r.priority == High then 1 else 0,
      if r.priority == Medium then 1 else 0,
      if r.priority == Low then 1 else 0,
      if r.lastVisit.Some? then 1 else 0,
      if r.lastVisit.Some? then r.days else 0,
      if r.lastVisit.Some? then Some(r.days) else None,
      if r.lastVisit.Some? then 0 else 1)
  {
    WhereSingle(r, IsRequired);
    WhereSingle(r, NotRequired);
    WhereSingle(r, IsHigh);
    WhereSingle(r, IsMedium);
    WhereSingle(r, IsLow);
    WhereSingle(r, HasDate);
    WhereSingle(r, LacksDate);
  }

  /** The summary by date of two stretches of rows is their summaries
      merged. */
  lemma SummarizeByDateConcat(a: seq<SiteStatus>, b: seq<SiteStatus>)
    ensures SummarizeByDate(a + b) == Merge(SummarizeByDate(a), SummarizeByDate(b))
  {
    SummarizeByDateTallyConcat(a, b);
    SummarizeByDateDaysConcat(a, b);
    MergeFields(SummarizeByDate(a + b), SummarizeByDate(a), SummarizeByDate(b));
  }

  /** The site, visit and tier counts of the summary by date add over two stretches. */
  lemma SummarizeByDateTallyConcat(a: seq<SiteStatus>, b: seq<SiteStatus>)
    ensures SummarizeByDate(a + b).totalSites == SummarizeByDate(a).totalSites + SummarizeByDate(b).totalSites
    ensures SummarizeByDate(a + b).requiringVisit == SummarizeByDate(a).requiringVisit + SummarizeByDate(b).requiringVisit
    ensures SummarizeByDate(a + b).sitesOk == SummarizeByDate(a).sitesOk + SummarizeByDate(b).sitesOk
    ensures SummarizeByDate(a + b).high == SummarizeByDate(a).high + SummarizeByDate(b).high
    ensures SummarizeByDate(a + b).medium == SummarizeByDate(a).medium + SummarizeByDate(b).medium
    ensures SummarizeByDate(a + b).low == SummarizeByDate(a).low + SummarizeByDate(b).low
  {
    TallyConcat(a, b);
  }

  /** The days fields of the summary by date combine over two stretches. */
  lemma SummarizeByDateDaysConcat(a: seq<SiteStatus>, b: seq<SiteStatus>)
    ensures SummarizeByDate(a + b).knownDaysCount == SummarizeByDate(a).knownDaysCount + SummarizeByDate(b).knownDaysCount
    ensures SummarizeByDate(a + b).knownDaysSum == SummarizeByDate(a).knownDaysSum + SummarizeByDate(b).knownDaysSum
    ensures SummarizeByDate(a + b).maxDays == MaxOf(SummarizeByDate(a).maxDays, SummarizeByDate(b).maxDays)
    ensures SummarizeByDate(a + b).noData == SummarizeByDate(a).noData + SummarizeByDate(b).noData
  {
    DaysConcat(a, b, HasDate, LacksDate);
  }

  /** The visit and tier counts over two stretches of rows add up. */
  lemma TallyConcat(a: seq<SiteStatus>, b: seq<SiteStatus>)
    ensures CountWhere(a + b, IsRequired) == CountWhere(a, IsRequired) + CountWhere(b, IsRequired)
    ensures CountWhere(a + b, NotRequired) == CountWhere(a, NotRequired) + CountWhere(b, NotRequired)
    ensures CountWhere(a + b, IsHigh) == CountWhere(a, IsHigh) + CountWhere(b, IsHigh)
    ensures CountWhere(a + b, IsMedium) == CountWhere(a, IsMedium) + CountWhere(b, IsMedium)
    ensures CountWhere(a + b, IsLow) == CountWhere(a, IsLow) + CountWhere(b, IsLow)
  {
    CountConcat(a, b, IsRequired);
    CountConcat(a, b, NotRequired);
    CountConcat(a, b, IsHigh);
    CountConcat(a, b, IsMedium);
    CountConcat(a, b, IsLow);
  }

  /** The known-days count, sum and maximum and the no-data count over two
      stretches of rows combine. */
  lemma DaysConcat(a: seq<SiteStatus>, b: seq<SiteStatus>, known: SiteStatus -> bool, missing: SiteStatus -> bool)
    ensures CountWhere(a + b, known) == CountWhere(a, known) + CountWhere(b, known)
    ensures SumDaysWhere(a + b, known) == SumDaysWhere(a, known) + SumDaysWhere(b, known)
    ensures MaxDaysWhere(a + b, known) == MaxOf(MaxDaysWhere(a, known), MaxDaysWhere(b, known))
    ensures CountWhere(a + b, missing) == CountWhere(a, missing) + CountWhere(b, missing)
  {
    CountConcat(a, b, known);
    SumConcat(a, b, known);
    MaxConcat(a, b, known);
    CountConcat(a, b, missing);
  }

  /** Counts of two complementary conditions add up to the number of rows. */
  lemma {:induction false} CountComplement(rows: seq<SiteStatus>, p: SiteStatus -> bool, q: SiteStatus -> bool)
    requires forall r :: q(r) == !p(r)
    ensures CountWhere(rows, p) + CountWhere(rows, q) == |rows|
  {
    if |rows| > 0 {
      CountComplement(rows[1..], p, q);
    }
  }

  /** Counts of two exclusive conditions add up to at most the number of rows. */
  lemma {:induction false} CountDisjoint(rows: seq<SiteStatus>, p: SiteStatus -> bool, q: SiteStatus -> bool)
    requires forall r :: !(p(r) && q(r))
    ensures CountWhere(rows, p) + CountWhere(rows, q) <= |rows|
  {
    if |rows| > 0 {
      CountDisjoint(rows[1..], p, q);
    }
  }

  /** Every row is in exactly one tier, so the tier counts add up. */
  lemma {:induction false} CountTiers(rows: seq<SiteStatus>)
    ensures CountWhere(rows, IsHigh)
          + CountWhere(rows, IsMedium)
          + CountWhere(rows, IsLow) == |rows|
  {
    if |rows| > 0 {
      CountTiers(rows[1..]);
    }
  }

  /** Conditions that agree on every row count the same rows. */
  lemma {:induction false} CountAgree(rows: seq<SiteStatus>, p: SiteStatus -> bool, q: SiteStatus -> bool)
    requires forall i :: 0 <= i < |rows| ==> p(rows[i]) == q(rows[i])
    ensures CountWhere(rows, p) == CountWhere(rows, q)
    ensures SumDaysWhere(rows, p) == SumDaysWhere(rows, q)
    ensures MaxDaysWhere(rows, p) == MaxDaysWhere(rows, q)
  {
    if |rows| > 0 {
      assert forall i :: 1 <= i < |rows| ==> rows[i] == rows[1..][i - 1];
      CountAgree(rows[1..], p, q);
    }
  }

  /** For the report rows, the counts agree with the rows: one row per
      target site, and a visit is required exactly for the HIGH rows. */
  lemma AnalyzeSummary(records: seq<VisitRecord>, targets: seq<Site>, now: Day)
    ensures Summarize(Analyze(records, targets, now)).totalSites == |Distinct(targets)|
    ensures Summarize(Analyze(records, targets, now)).requiringVisit
         == Summarize(Analyze(records, targets, now)).high
  {
    var rows := Analyze(records, targets, now);
    forall i | 0 <= i < |rows| ensures IsRequired(rows[i]) == IsHigh(rows[i]) {
      RequiredIffHighRow(rows[i]);
    }
    CountAgree(rows, IsRequired, IsHigh);
  }

  /** When every dated row is under the sentinel and every undated row sits
      on it, reading "no data" from the days value or from the date gives the
      same summary. */
  lemma SummariesAgree(rows: seq<SiteStatus>)
    requires forall i :: 0 <= i < |rows| ==> (rows[i].lastVisit.Some? ==> rows[i].days < NO_DATA_DAYS)
    requires forall i :: 0 <= i < |rows| ==> (rows[i].lastVisit.None? ==> rows[i].days == NO_DATA_DAYS)
    ensures Summarize(rows) == SummarizeByDate(rows)
  {
    CountAgree(rows, BelowSentinel, HasDate);
    CountAgree(rows, AtSentinel, LacksDate);
  }

  /** If no visit is 999 or more days old, the summary as written is the
      summary by date. */
  lemma AnalyzeSummariesAgree(records: seq<VisitRecord>, targets: seq<Site>, now: Day)
    requires forall x :: x in records ==> now - x.date < NO_DATA_DAYS
    ensures Summarize(Analyze(records, targets, now)) == SummarizeByDate(Analyze(records, targets, now))
  {
    var rows := Analyze(records, targets, now);
    forall i | 0 <= i < |rows| && rows[i].lastVisit.Some?
      ensures rows[i].days < NO_DATA_DAYS
    {
      assert RowReflects(records, now, rows[i]);
      assert VisitRecord(rows[i].site, rows[i].lastVisit.value) in records;
    }
    SummariesAgree(rows);
  }

  /** Over rows that reflect the records, one per target site, a row lacks
      a date exactly when its site has no record. */
  lemma LacksDateIffNoRecord(records: seq<VisitRecord>, now: Day, rows: seq<SiteStatus>)
    requires forall i :: 0 <= i < |rows| ==> RowReflects(records, now, rows[i])
    ensures CountWhere(rows, LacksDate) == CountWhere(rows, (r: SiteStatus) => !HasRecord(records, r.site))
  {
    forall i | 0 <= i < |rows|
      ensures LacksDate(rows[i]) == !HasRecord(records, rows[i].site)
    {
      assert RowReflects(records, now, rows[i]);
    }
    CountAgree(rows, LacksDate, (r: SiteStatus) => !HasRecord(records, r.site));
  }

  /** Over rows that reflect the records, one per target site, some row has
      a date exactly when some target site has a record. */
  lemma SomeDatedIffSomeRecord(records: seq<VisitRecord>, targets: seq<Site>, now: Day,
                               rows: seq<SiteStatus>)
    requires forall s :: s in SitesOf(rows) <==> s in targets
    requires forall i :: 0 <= i < |rows| ==> RowReflects(records, now, rows[i])
    ensures MaxDaysWhere(rows, HasDate).None? <==> forall s :: s in targets ==> !HasRecord(records, s)
  {
    forall s | s in targets
      ensures HasRecord(records, s) ==> exists i :: 0 <= i < |rows| && HasDate(rows[i])
    {
      assert s in SitesOf(rows);
      var i :| 0 <= i < |rows| && SitesOf(rows)[i] == s;
      assert RowReflects(records, now, rows[i]);
    }
    forall i | 0 <= i < |rows| && HasDate(rows[i])
      ensures rows[i].site in targets && HasRecord(records, rows[i].site)
    {
      assert SitesOf(rows)[i] in SitesOf(rows);
      assert RowReflects(records, now, rows[i]);
    }
  }

  /** By date, "Sites with No Data" counts exactly the target sites without
      a record, and the maximum exists exactly when some target site has one. */
  lemma ByDateNoDataIsMissingSites(records: seq<VisitRecord>, targets: seq<Site>, now: Day)
    ensures SummarizeByDate(Analyze(records, targets, now)).noData
         == CountWhere(Analyze(records, targets, now), (r: SiteStatus) => !HasRecord(records, r.site))
    ensures SummarizeByDate(Analyze(records, targets, now)).maxDays.None?
        <==> forall s :: s in targets ==> !HasRecord(records, s)
  {
    var rows := Analyze(records, targets, now);
    ByDateNoDataOver(records, targets, now, rows);
  }

  /** The same over any rows that reflect the records, one per target site. */
  lemma ByDateNoDataOver(records: seq<VisitRecord>, targets: seq<Site>, now: Day, rows: seq<SiteStatus>)
    requires forall s :: s in SitesOf(rows) <==> s in targets
    requires forall i :: 0 <= i < |rows| ==> RowReflects(records, now, rows[i])
    ensures SummarizeByDate(rows).noData == CountWhere(rows, (r: SiteStatus) => !HasRecord(records, r.site))
    ensures SummarizeByDate(rows).maxDays.None? <==> forall s :: s in targets ==> !HasRecord(records, s)
  {
    LacksDateIffNoRecord(records, now, rows);
    SomeDatedIffSomeRecord(records, targets, now, rows);
  }

  /** The largest days value among dated rows that reflect the records, one
      per target site, is the longest time since the latest visit of a
      target site with records. */
  lemma {:induction false} DatedMaxIsLongestGap(records: seq<VisitRecord>, targets: seq<Site>, now: Day,
                                                rows: seq<SiteStatus>)
    requires forall s :: s in SitesOf(rows) <==> s in targets
    requires forall i :: 0 <= i < |rows| ==> RowReflects(records, now, rows[i])
    ensures MaxDaysWhere(rows, HasDate).Some? ==>
      exists s, d :: s in targets && IsLatest(records, s, d)
        && MaxDaysWhere(rows, HasDate).value == now - d
    ensures MaxDaysWhere(rows, HasDate).Some? ==>
      forall s, d :: s in targets && IsLatest(records, s, d) ==>
        now - d <= MaxDaysWhere(rows, HasDate).value
  {
    var m := MaxDaysWhere(rows, HasDate);
    if m.Some? {
      var i :| 0 <= i < |rows| && HasDate(rows[i]) && rows[i].days == m.value;
      assert SitesOf(rows)[i] in SitesOf(rows);
      assert RowReflects(records, now, rows[i]);
      assert IsLatest(records, rows[i].site, rows[i].lastVisit.value);
      forall s, d | s in targets && IsLatest(records, s, d) ensures now - d <= m.value {
        var j := LatestRow(records, now, rows, s, d);
      }
    }
  }

  /** The row of a site whose latest visit is on day `d` is dated, and its
      days are the time since `d`. */
  lemma LatestRow(records: seq<VisitRecord>, now: Day, rows: seq<SiteStatus>, s: Site, d: Day)
      returns (j: nat)
    requires s in SitesOf(rows) && IsLatest(records, s, d)
    requires forall i :: 0 <= i < |rows| ==> RowReflects(records, now, rows[i])
    ensures j < |rows| && rows[j].site == s && HasDate(rows[j]) && rows[j].days == now - d
  {
    j :| 0 <= j < |rows| && SitesOf(rows)[j] == s;
    assert VisitRecord(s, d) in records;
    assert HasRecord(records, s);
    assert RowReflects(records, now, rows[j]);
    var e := rows[j].lastVisit.value;
    assert VisitRecord(s, e) in records;
  }

  /** By date, the maximum is the longest time since the latest visit of any
      target site that has records: one of them reaches it and none exceeds
      it. */
  lemma ByDateMaxIsLongestGap(records: seq<VisitRecord>, targets: seq<Site>, now: Day)
    ensures SummarizeByDate(Analyze(records, targets, now)).maxDays.Some? ==>
      exists s, d :: s in targets && IsLatest(records, s, d)
        && SummarizeByDate(Analyze(records, targets, now)).maxDays.value == now - d
    ensures SummarizeByDate(Analyze(records, targets, now)).maxDays.Some? ==>
      forall s, d :: s in targets && IsLatest(records, s, d) ==>
        now - d <= SummarizeByDate(Analyze(records, targets, now)).maxDays.value
  {
    var rows := Analyze(records, targets, now);
    assert SummarizeByDate(rows).maxDays == MaxDaysWhere(rows, HasDate);
    DatedMaxIsLongestGap(records, targets, now, rows);
  }

  /** A single visit to a single target site yields that site's data row. */
  lemma SingleVisit(site: Site, d: Day, now: Day)
    ensures Analyze([VisitRecord(site, d)], [site], now) == [WithData(site, d, now)]
  {
    var records := [VisitRecord(site, d)];
    assert records[0] in records;
    SingleTargetVisited(records, site, d, now);
  }

  /** A site last visited exactly 999 days ago is counted under "Sites with
      No Data" although it has a record; by date it is not. */
  lemma NoDataCountsVisitedSite(site: Site, d: Day, now: Day)
    requires now - d == NO_DATA_DAYS
    ensures HasRecord([VisitRecord(site, d)], site)
    ensures Summarize(Analyze([VisitRecord(site, d)], [site], now)).noData == 1
    ensures SummarizeByDate(Analyze([VisitRecord(site, d)], [site], now)).noData == 0
  {
    assert VisitRecord(site, d) in [VisitRecord(site, d)];
    SingleVisit(site, d, now);
    var r := WithData(site, d, now);
    assert AtSentinel(r) && !LacksDate(r);
  }

  /** With one visit to one target site, 999 days ago or earlier, the site is
      left out of the average and the maximum although it has a date; by
      date its days are the maximum. */
  lemma MaxSkipsLongUnvisitedSite(site: Site, d: Day, now: Day)
    requires now - d >= NO_DATA_DAYS
    ensures Summarize(Analyze([VisitRecord(site, d)], [site], now)).maxDays == None
    ensures Summarize(Analyze([VisitRecord(site, d)], [site], now)).knownDaysCount == 0
    ensures SummarizeByDate(Analyze([VisitRecord(site, d)], [site], now)).maxDays.Some?
    ensures SummarizeByDate(Analyze([VisitRecord(site, d)], [site], now)).maxDays.value == now - d
  {
    var r := WithData(site, d, now);
    assert r.days == now - d && r.lastVisit.Some?;
    SingleVisit(site, d, now);
    LongGapRow(Analyze([VisitRecord(site, d)], [site], now), r);
  }

  /** The summaries of a single dated row at or above the sentinel. */
  lemma LongGapRow(rows: seq<SiteStatus>, r: SiteStatus)
    requires rows == [r]
    requires r.lastVisit.Some? && r.days >= NO_DATA_DAYS
    ensures Summarize(rows).maxDays == None
    ensures Summarize(rows).knownDaysCount == 0
    ensures SummarizeByDate(rows).maxDays == Some(r.days)
  {
    assert !BelowSentinel(r) && HasDate(r);
  }
}

=== FILE: visits.dfy ===
/**
 Basic vocabulary of the site-visit analysis: sites, day numbers, visit
 records and the configured list of target sites.

 Dates are whole day numbers (days since some fixed epoch); the analysis only
 ever subtracts them, so the epoch does not matter.
 */
module Visits {

  /** A site identifier, such as "NANT". */
  type Site = string

  /** A calendar date as a day number. */
  type Day = int

  datatype Option<+T> = None | Some(value: T)

  /** One row of the input sheet: the site that was visited and when. */
  datatype VisitRecord = VisitRecord(site: Site, date: Day)

  /** The sites the report must always mention, in configuration order. */
  const TARGET_SITES: seq<Site> := [
    "NANT", "BLCK", "AMAG", "MRCH", "HEMP", "HOOK", "LOVE",
    "BRIG", "WILD", "SILD", "OLDB", "PORT", "CAPE", "LEWE", "HLPN",
    "SEAB", "BRAD", "SPRK", "HLGT", "BRMR", "RATH", "WOOD", "CMPT"
  ]

  predicate NoDuplicates<T(==)>(s: seq<T>) {
    forall i, j :: 0 <= i < j < |s| ==> s[i] != s[j]
  }

  /** The elements of `s` in order of first occurrence, each once. */
  function Distinct<T(==,!new)>(s: seq<T>): (r: seq<T>)
    ensures forall x :: x in r <==> x in s
    ensures NoDuplicates(r)
    ensures |r| <= |s|
    ensures NoDuplicates(s) ==> r == s
  {
    if |s| == 0 then []
    else
      var d := Distinct(s[..|s| - 1]);
      var x := s[|s| - 1];
      assert forall y :: y in s <==> y in s[..|s| - 1] || y == x by {
        assert s == s[..|s| - 1] + [x];
      }
      if x in d then d else d + [x]
  }

  /** A sequence without duplicates has at most one copy of each element. */
  lemma {:induction false} NoDuplicatesMultiset<T>(s: seq<T>)
    ensures NoDuplicates(s) <==> forall x :: multiset(s)[x] <= 1
  {
    if |s| == 0 {
    } else {
      var t := s[1..];
      assert s == [s[0]] + t;
      NoDuplicatesMultiset(t);
      if NoDuplicates(s) {
        assert NoDuplicates(t) by {
          forall i, j | 0 <= i < j < |t| ensures t[i] != t[j] {
            assert t[i] == s[i + 1] && t[j] == s[j + 1];
          }
        }
        forall k | 0 <= k < |t| ensures t[k] != s[0] {
          assert t[k] == s[k + 1];
        }
        assert multiset(t)[s[0]] == 0;
      } else {
        var i, j :| 0 <= i < j < |s| && s[i] == s[j];
        if i == 0 {
          assert s[j] == t[j - 1];
          assert s[0] in multiset(t);
          assert multiset(s)[s[0]] >= 2;
        } else {
          assert t[i - 1] == t[j - 1];
          assert !NoDuplicates(t);
          var x :| multiset(t)[x] > 1;
          assert multiset(s)[x] > 1;
        }
      }
    }
  }

  /** Reordering a sequence keeps it free of duplicates. */
  lemma PermutationNoDuplicates<T>(a: seq<T>, b: seq<T>)
    requires multiset(a) == multiset(b)
    requires NoDuplicates(a)
    ensures NoDuplicates(b)
  {
    NoDuplicatesMultiset(a);
    NoDuplicatesMultiset(b);
  }

  /** `f` applied to every element of `s`, in order. */
  function MapSeq<T, U>(s: seq<T>, f: T -> U): (r: seq<U>)
    ensures |r| == |s|
    ensures forall i :: 0 <= i < |s| ==> r[i] == f(s[i])
  {
    if |s| == 0 then [] else [f(s[0])] + MapSeq(s[1..], f)
  }

  lemma MapSeqConcat<T, U>(u: seq<T>, v: seq<T>, f: T -> U)
    ensures MapSeq(u + v, f) == MapSeq(u, f) + MapSeq(v, f)
  {
  }

  /** A sequence of length one is its element. */
  lemma Singleton<T>(s: seq<T>)
    requires |s| == 1
    ensures s == [s[0]]
  {
  }

  /** A non-empty sequence holds its head once more than its tail. */
  lemma HeadTailMultiset<T>(x: seq<T>)
    requires |x| > 0
    ensures multiset(x) == multiset{x[0]} + multiset(x[1..])
  {
    assert x == [x[0]] + x[1..];
  }

  /** Removing the element at `k` removes one copy of it. */
  lemma MultisetRemoveAt<T>(b: seq<T>, k: int)
    requires 0 <= k < |b|
    ensures multiset(b[..k] + b[k + 1..]) == multiset(b) - multiset{b[k]}
  {
    assert b == b[..k] + [b[k]] + b[k + 1..];
  }

  /** A sequence is its part before `k`, its element `k` and its part after. */
  lemma SplitAt<T>(b: seq<T>, k: int)
    requires 0 <= k < |b|
    ensures b == b[..k] + ([b[k]] + b[k + 1..])
  {
  }

  /** The image of `b` is the image of `b` without its element `k`, plus the
      image of that element. */
  lemma MapSeqRemoveAt<T, U>(b: seq<T>, k: int, f: T -> U)
    requires 0 <= k < |b|
    ensures multiset(MapSeq(b, f)) == multiset(MapSeq(b[..k] + b[k + 1..], f)) + multiset{f(b[k])}
  {
    var u, x, v := b[..k], b[k], b[k + 1..];
    var mu, mv := MapSeq(u, f), MapSeq(v, f);
    assert MapSeq(b, f) == mu + ([f(x)] + mv) by {
      SplitAt(b, k);
      MapSeqConcat(u, [x] + v, f);
      MapSeqConcat([x], v, f);
    }
    assert MapSeq(u + v, f) == mu + mv by {
      MapSeqConcat(u, v, f);
    }
    MultisetInsert(mu, f(x), mv);
  }

  /** An element placed between two sequences adds one copy of itself. */
  lemma MultisetInsert<U>(p: seq<U>, y: U, q: seq<U>)
    ensures multiset(p + ([y] + q)) == multiset(p + q) + multiset{y}
  {
  }

  /** Taking the first element off one of two permutations of each other
      and a copy of it off the other leaves permutations of each other. */
  lemma RemoveMatching<T>(a: seq<T>, b: seq<T>, k: int)
    requires multiset(a) == multiset(b)
    requires 0 < |a| && 0 <= k < |b| && b[k] == a[0]
    ensures multiset(a[1..]) == multiset(b[..k] + b[k + 1..])
  {
    MultisetRemoveAt(b, k);
    assert a == [a[0]] + a[1..];
  }

  /** Reordering a sequence reorders its image the same way. */
  lemma {:induction false} MapSeqPermutation<T, U>(a: seq<T>, b: seq<T>, f: T -> U)
    requires multiset(a) == multiset(b)
    ensures multiset(MapSeq(a, f)) == multiset(MapSeq(b, f))
    decreases |a|
  {
    if |a| == 0 {
      assert |b| == |multiset(b)| == 0;
    } else {
      var x := a[0];
      assert x in multiset(b);
      var k :| 0 <= k < |b| && b[k] == x;
      var b' := b[..k] + b[k + 1..];
      RemoveMatching(a, b, k);
      MapSeqPermutation(a[1..], b', f);
      MapSeqRemoveAt(b, k, f);
      assert MapSeq(a, f) == [f(x)] + MapSeq(a[1..], f);
    }
  }
}
